=== FILE: README.md ===
# hyprwhenthen, the sequential core, in Dafny

hyprwhenthen is a daemon for the Hyprland compositor. It reads the
compositor's event socket line by line. A line has the form
`<key>>><payload>`. The daemon finds the `[[handler]]` tables of its TOML
configuration whose `on` key is the line's key and whose `when` regular
expression matches the payload. For each one it runs the handler's `then`
shell command in a pool of workers. The regular expression's submatches are
passed to the command as the variables `REGEX_GROUP_<i>`. A job's routing key
chooses its worker, so jobs with one routing key run in the order they were
submitted.

This project models the rules under the goroutines, one Dafny module per
source file:

- `Config` (`internal/config/config.go`): handler and `[general]` validation.
  It also covers grouping handlers by their `on` key into `OnEvents` and
  listing the distinct keys in `EventKeys`. Last, it models the snapshot
  holder whose `Reload` swaps the snapshot only when loading succeeds.
  `RawConfig` and `Config` are classes, because the source updates their
  fields in place.
- `Hypr` (`internal/hypr/types.go`): `ParseEvent`, a first-match search
  over `EventKeys` for the prefix `key + ">>"`.
- `Jobs` (`internal/workerpool/types.go`): the `Job` and `JobResult` records (Go's `Job` and `Result`)
  and `NewJob`. NewJob resolves the routing key. With no template the key
  is the job's id. With a template, variables are looked up in the job's
  own environment first and in the process environment second.
- `ShellExpand`: Go's `os.Expand`, which `NewJob` uses.
- `GoStrings`: `strings.CutPrefix`, `strconv.Itoa`, and the UTF-8 bytes of a
  string.
- `Workerpool` (`internal/workerpool/service.go`): the pool as a class.
  - It holds `N` bounded FIFO queues, a closed flag and the results buffer.
  - It models FNV-1a-32 routing (32-bit wrap-around, as `bv32`), `Submit`,
    `Stop`, one turn of a worker's loop, and the choice of a job's timeout.
  - Ghost histories of submitted and executed jobs carry the ordering
    guarantee: each key's executed jobs followed by its queued jobs are its
    submitted jobs.
- `EventProcessor` (`internal/eventprocessor/service.go`): `process` as a
  loop over the handlers. It is proved against a recursive plan of the jobs
  one event yields.
- `Debouncer` (`internal/utils/debouncer.go`): the `Run` loop's local
  variables and its `select`, as a step function over the inputs Do, Cancel,
  Tick and Done. `Run` is a `while` loop over a trace of inputs, proved to
  compute the step function's fold.

These collaborators are parameters:
- the regular-expression engine (`Regexp`);
- the UUID source (`uuid`);
- the process environment (`procEnv`);
- what the configuration file yields (`FileSource`);
- how a job's command behaves (`ProcessRun`);
- whether a context is done (`ctxDone`).

`process` calls `NewJob` with three arguments, but `NewJob` takes four
(internal/eventprocessor/service.go:113 against
internal/workerpool/types.go:25). The model passes no routing template, so
each job of an event is routed by its own id.

## Model

| member | source | states |
|---|---|---|
| `Config.ValidateEvent` | internal/config/config.go:147-161 | The result is the first rule, in check order (`on`, `when`, `then`, timeout), that the handler breaks. It is None exactly when the handler breaks no rule; an absent timeout is allowed and a present one must be positive. |
| `Config.ValidateGeneral` | internal/config/config.go:137-145 | It rejects a missing timeout ("has to be set") before a non-positive one ("must be positive"), and accepts exactly when the timeout is present and positive. |
| `Config.FirstInvalid` | internal/config/config.go:110-114 | It returns the index and error of the first handler that fails validation, with every earlier handler valid. It returns None exactly when all handlers are valid. |
| `Config.Check` | internal/config/config.go:105-135 | The error is "no events" exactly for an empty handler list. A handler error names the first invalid handler. A general error comes only after every handler passed. Success means handlers exist, all are valid, and the general section, filled in when absent, is valid. |
| `Config.MissingGeneralRejected` | internal/config/config.go:126-132 | With valid handlers and no `[general]` table, validation always fails with "timeout has to be set". |
| `Config.HandlersOnConcat` | internal/config/config.go:116-119 | Grouping by key distributes over concatenation, so each bucket keeps the configured order. |
| `Config.HandlersOnMembers` | internal/config/config.go:116-119 | A handler is in the bucket of key `k` exactly when it is configured and its `on` is `k`. |
| `Config.BucketMembers` | internal/config/config.go:116-119 | Every handler in the bucket of key `k` is a configured handler whose `on` is `k`. |
| `Config.HandlersOnLength` | internal/config/config.go:116-119 | No bucket holds more handlers than are configured. |
| `Config.GroupByOnSnoc` | internal/config/config.go:117-119 | Appending one handler appends it to its own key's bucket, creating the bucket if needed, and changes no other bucket. |
| `Config.EventKeysCount` | internal/config/config.go:121-124 | A key list that holds each key of `OnEvents` exactly once is as long as `OnEvents` has keys. |
| `Config.ValidateEach` | internal/config/config.go:110-114 | The validation loop stops at the first failing handler and returns what `FirstInvalid` specifies. |
| `Config.Group` | internal/config/config.go:116-119 | The grouping loop builds exactly `GroupByOn`, the map from each configured key to its handlers in configured order. |
| `Config.ListKeys` | internal/config/config.go:121-124 | Taking keys in any order, the loop lists each key of `OnEvents` exactly once and nothing else. |
| `Config.FilledGeneral` | internal/config/config.go:126-128 | A decoded `[general]` table is kept as it is. A missing one becomes an empty section with no timeout, which general validation then rejects. |
| `Config.RawConfig.constructor` | internal/config/config.go:91-94 | The decoded value holds the given handlers and general section, and its derived fields are empty. |
| `Config.RawConfig.Validate` | internal/config/config.go:105-135 | It returns `Check` of the decoded tables. Before the handler checks pass, nothing changes. Once they pass, `OnEvents` is the grouping, `EventKeys` lists its keys once each, and an absent `[general]` is filled with an empty one. On success the snapshot invariant holds. |
| `Config.Load` | internal/config/config.go:69-103 | It succeeds exactly when the file decodes and validates, giving a fresh validated snapshot of the decoded handlers and the decoded `[general]` table. A missing file is "not found", an unreadable or undecodable file carries its read or decode error, and a decoded but invalid file reports the validation error. |
| `Config.Config.ValidHasGeneralTimeout` | internal/config/config.go:126-143 | A validated snapshot always carries a positive general timeout. |
| `Config.Config.Empty` | internal/config/config.go:22-26 | The holder starts with the path and no snapshot. |
| `Config.Config.Get` | internal/config/config.go:34-38 | It returns the current snapshot. |
| `Config.Config.Reload` | internal/config/config.go:40-49 | It succeeds exactly when loading does. On failure the snapshot is unchanged, and the error names the path and wraps the cause: "not found" for a missing file, the read or decode error, or the validation error of a decoded but invalid file. On success the snapshot is a fresh validated one holding the file's `[general]` table, and a valid holder stays valid. |
| `Config.NewConfig` | internal/config/config.go:21-32 | It succeeds exactly when the first load succeeds, and returns a fresh holder with that path and a validated snapshot whose `[general]` table is the file's. On failure it reports an initialisation error wrapping the reload error for that path, with the same cause as a reload: "not found", the read or decode error, or the validation error. |
| `GoStrings.CutPrefix` | internal/hypr/types.go:15 | It reports whether the prefix is present; when present, `s == prefix + rest`, and otherwise `s` comes back unchanged. |
| `GoStrings.Itoa` | internal/eventprocessor/service.go:110 | The decimal form is non-empty, all digits, and one digit long exactly for numbers below ten. |
| `GoStrings.DigitChar` | internal/eventprocessor/service.go:110 | A digit below ten becomes the character whose distance from `0` is that digit. |
| `GoStrings.ItoaLast` | internal/eventprocessor/service.go:110 | The last character of the decimal form is the last digit, and what precedes it is the decimal form of the number divided by ten. |
| `GoStrings.ItoaInjective` | internal/eventprocessor/service.go:110 | Different numbers have different decimal forms. |
| `GoStrings.EncodeRune` | internal/workerpool/service.go:156 | A scalar value takes 1 to 4 UTF-8 bytes. It takes one byte exactly when it is ASCII, and that byte is its code. |
| `GoStrings.Utf8` | internal/workerpool/service.go:156 | A string's UTF-8 form has at least one byte per character. |
| `ShellExpand.CloseBrace` | internal/workerpool/types.go:31 | It returns the first `}` at or after `i`, or -1 when there is none. |
| `ShellExpand.AlphaNumRun` | internal/workerpool/types.go:31 | It returns the end of the maximal alphanumeric run starting at `i`. |
| `ShellExpand.ShellName` | internal/workerpool/types.go:31 | The name after a `$` and its width: a non-empty name always consumes input, and an empty one consumes nothing or only bad syntax. |
| `ShellExpand.ExpandVerbatim` | internal/workerpool/types.go:31 | A template without `$` expands to itself. |
| `ShellExpand.ExpandWhole` | internal/workerpool/types.go:31-37 | A template that is a single `$` reference to a non-empty name, with nothing after it, expands to the mapped value of that name. |
| `ShellExpand.ExpandNameAt` | internal/workerpool/types.go:31-37 | `$` followed by an alphanumeric run that starts with neither a special character nor `{` expands to the mapped value of the whole run. |
| `ShellExpand.AlphaShellName` | internal/workerpool/types.go:31 | An alphanumeric run that starts with neither a special character nor `{` is the name in full, and all of it is consumed. |
| `ShellExpand.ExpandDependsOnVars` | internal/workerpool/types.go:31-37 | Two mappings that agree on the template's variables give the same expansion. |
| `ShellExpand.ExpandSingleName` | internal/workerpool/types.go:31-37 | `$name`, with an alphanumeric name, expands to the mapped value. |
| `ShellExpand.BracedShellName` | internal/workerpool/types.go:31 | `{name}` after a `$` yields `name` and consumes the braces. |
| `ShellExpand.BracedShellNameAt` | internal/workerpool/types.go:31 | After a `$`, a text that opens with `{`, closes with its first `}` at the end and has something in between yields the text between the braces and consumes all of it. |
| `ShellExpand.ExpandBracedName` | internal/workerpool/types.go:31-37 | `${name}` expands to the mapped value. |
| `Jobs.NewJob` | internal/workerpool/types.go:25-46 | The job keeps the id, command, timeout and environment as passed. With no template, the routing key is the id. |
| `Jobs.VerbatimRoutingKey` | internal/workerpool/types.go:30-31 | A template without `$` is the routing key itself. |
| `Jobs.EnvShadowsProcessEnv` | internal/workerpool/types.go:31-37 | When the job's environment defines every variable of the template, the process environment cannot change the job. |
| `Jobs.RoutingKeyLookup` | internal/workerpool/types.go:31-37 | `${name}` resolves to the job's variable when it has one, and to the process variable (or "") otherwise. |
| `Hypr.FirstMatch` | internal/hypr/types.go:14-23 | It finds something exactly when some key, followed by `>>`, prefixes the line. The key found is one of the keys, and the line is `key + ">>" + context`. |
| `Hypr.ParseEvent` | internal/hypr/types.go:13-24 | An event is found exactly when some key of `EventKeys` matches the line, and its type is one of `EventKeys`. With no match, or no keys, there is no event. |
| `Hypr.FirstMatchWins` | internal/hypr/types.go:14-19 | When several keys match, the earliest in `EventKeys` wins, with the rest of the line as context. |
| `Hypr.MatchingKeyUnique` | internal/hypr/types.go:14-16 | Two keys free of `>` cannot both match one line. |
| `Hypr.KeyOrderIrrelevant` | internal/hypr/types.go:14-16 | For keys free of `>`, the order of `EventKeys` (Go map order) does not change the parse. |
| `Hypr.ParsedEventHasHandlers` | internal/hypr/types.go:14-18 | In a validated snapshot, a parsed event's type has a non-empty bucket in `OnEvents`. |
| `Workerpool.Fnv1a32` | internal/workerpool/service.go:154-158 | The hash of no bytes is the offset basis. Otherwise it is the last byte folded, by xor then multiplication by the prime modulo 2^32, into the hash of the bytes before it. |
| `Workerpool.FnvFoldConcat` | internal/workerpool/service.go:154-158 | FNV-1a is a left fold: hashing `a + b` continues from the hash of `a`. |
| `Workerpool.FnvKnownValues` | internal/workerpool/service.go:154-158 | The model gives the published FNV-1a-32 values for "" (0x811c9dc5) and "a" (0xe40c292c). |
| `Workerpool.HashRoutingKey` | internal/workerpool/service.go:154-158 | The hash, widened to a 64-bit int, is non-negative and below 2^32. |
| `Workerpool.WorkerIndex` | internal/workerpool/service.go:63-67 | The worker index is the hash modulo N, so it lies in `[0, N)` and depends on the key alone. |
| `Workerpool.EnqueueKeepsRouted` | internal/workerpool/service.go:70-74 | Appending a job to the queue its key selects keeps every queued job in its key's queue. |
| `Workerpool.EnqueueKeepsOrder` | internal/workerpool/service.go:70-74 | Appending a job to its key's queue and to the submissions keeps, for every key, executed then queued equal to submitted. |
| `Workerpool.DequeueKeepsRouted` | internal/workerpool/service.go:112-116 | Taking a queue's head keeps every remaining job in its key's queue. |
| `Workerpool.DequeueKeepsOrder` | internal/workerpool/service.go:112-118 | Taking a queue's head and running it keeps the per-key order: that job is the next of its key to run. |
| `Workerpool.SameKeyRunsInSubmissionOrder` | internal/workerpool/service.go:107-121 | The jobs of any one routing key run in submission order: the executed ones are a prefix of that key's submissions. |
| `Workerpool.DrainedRunsAllInOrder` | internal/workerpool/service.go:107-121 | Once all queues are drained, each key's executed jobs are exactly its submissions, in order. |
| `Workerpool.RoutedCount` | internal/workerpool/service.go:63-75 | The number of jobs routed to one queue is at most the number of jobs, and zero for a queue index outside the pool. |
| `Workerpool.RoomAfterEnqueue` | internal/workerpool/service.go:63-75 | If every queue has room for the jobs routed to it, the first job's queue has a free slot. After that job is enqueued, every queue still has room for the remaining jobs routed to it. |
| `Workerpool.RoutedJobs` | internal/workerpool/service.go:63-75 | The jobs routed to one queue, in submission order, number exactly `RoutedCount`. |
| `Workerpool.RoutedJobsMembers` | internal/workerpool/service.go:63-75 | A job is routed to queue `w` exactly when it is one of the jobs and its key selects `w`. |
| `Workerpool.RoutedJobsConcat` | internal/workerpool/service.go:63-75 | Routing two batches one after the other routes the first batch's jobs first, in every queue. |
| `Workerpool.RoutedJobsSnoc` | internal/workerpool/service.go:70-74 | One more job extends exactly the share of the queue its key selects, at the tail. |
| `Workerpool.GainedNothing` | internal/workerpool/service.go:55-76 | Before any submission, every queue holds what it started with. |
| `Workerpool.GainedNothingUnchanged` | internal/workerpool/service.go:55-76 | If no job was submitted, the queues are exactly the ones the pool started with. |
| `Workerpool.GainedOneMore` | internal/workerpool/service.go:70-74 | Appending a job to the tail of the queue its key selects, and to no other, extends what every queue has gained by exactly its routed share of that job. |
| `Workerpool.GainedLengths` | internal/workerpool/service.go:70-74 | After a batch of submissions each queue is longer by exactly the number of the batch's jobs routed to it. |
| `Workerpool.EffectiveTimeout` | internal/workerpool/service.go:127-130 | A job's own timeout is used when it has one; otherwise the general timeout is. |
| `Workerpool.ExecuteJob` | internal/workerpool/service.go:126-152 | The result is a deadline error exactly when the command outlives the effective timeout. It is "job errored" exactly when the command fails in time, and success exactly when it succeeds in time. |
| `Workerpool.OwnTimeoutOverridesGeneral` | internal/workerpool/service.go:127-130 | A job with its own timeout is judged by that timeout alone, whatever the general one. |
| `Workerpool.GeneralTimeout` | internal/workerpool/service.go:129 | The fallback timeout read from the snapshot is positive. |
| `Workerpool.Service.constructor` | internal/workerpool/service.go:37-48 | The pool has `workersNum` empty queues of capacity `queueSize` and a results buffer of capacity `queueSize*workersNum`. It is open, and its invariant holds. |
| `Workerpool.Service.Submit` | internal/workerpool/service.go:55-76 | It reports "pool is closed" exactly when the pool is closed, and then nothing changes. On an open pool with a live context: the job is appended to the tail of exactly the queue its key selects, other queues are unchanged, and it joins the submissions. With a dead context and a full queue: the context's cause, and nothing changes. The invariant is kept. |
| `Workerpool.Service.Stop` | internal/workerpool/service.go:78-85 | It closes the pool. A second call changes nothing, and queued jobs stay to be drained. |
| `Workerpool.Service.PublishKeepsValid` | internal/workerpool/service.go:116-118 | Taking the head job and publishing its result keeps routing, the per-key order, the queue bounds and the result/job correspondence. |
| `Workerpool.Service.RunWorkerStep` | internal/workerpool/service.go:100-124 | With the context done, the worker returns and nothing changes. With its queue drained after Stop, it returns. Otherwise it takes its queue's head, runs it with its effective timeout, and publishes exactly one result carrying the job's id, error and command, in FIFO order. |
| `Workerpool.Service.Receive` | internal/workerpool/service.go:51-53 | The oldest published result is delivered first, and the queues are untouched. |
| `Workerpool.NewService` | internal/workerpool/service.go:29-49 | It fails with the workers error when `workersNum <= 0`, and otherwise with the queue error when `queueSize < 0`. It succeeds exactly when both are acceptable, giving an open pool with `workersNum` empty queues. |
| `EventProcessor.GroupName` | internal/eventprocessor/service.go:110 | Every capture variable starts with `REGEX_GROUP_`. |
| `EventProcessor.GroupNameInjective` | internal/eventprocessor/service.go:110 | Different submatch indices give different variable names. |
| `EventProcessor.CaptureEnv` | internal/eventprocessor/service.go:107-111 | Every submatch index `i` gets the variable `REGEX_GROUP_<i>`. |
| `EventProcessor.CaptureEnvKeys` | internal/eventprocessor/service.go:107-111 | The job environment has exactly the variables `REGEX_GROUP_0` to `REGEX_GROUP_<n-1>`. |
| `EventProcessor.CaptureEnvValues` | internal/eventprocessor/service.go:107-111 | `REGEX_GROUP_<i>` is set to submatch `i` for every `i`, the whole match being 0. |
| `EventProcessor.BuildEnv` | internal/eventprocessor/service.go:107-111 | The loop over the submatches builds exactly that environment. |
| `EventProcessor.HandlerJob` | internal/eventprocessor/service.go:113 | The job of a matching handler has the UUID as id and as routing key, the handler's command and timeout, and the capture environment. |
| `EventProcessor.HandlerJobIsNewJob` | internal/eventprocessor/service.go:113 | That job is the one `NewJob` builds from the capture environment, the command, the timeout and the UUID, with no routing template. |
| `EventProcessor.PlanJobs` | internal/eventprocessor/service.go:96-118 | An event yields at most one job per handler. |
| `EventProcessor.PlanFailsOnBadPattern` | internal/eventprocessor/service.go:97-100 | The event fails exactly when some handler's pattern does not compile, and the error names such a pattern. |
| `EventProcessor.PlanJobIds` | internal/eventprocessor/service.go:113 | The k-th job of the event carries the k-th UUID drawn as its id and, with no template, as its routing key. |
| `EventProcessor.PlanIsMatchingHandlers` | internal/eventprocessor/service.go:96-115 | When every pattern compiles, the jobs correspond one to one, in handler order, to the matching handlers. Each runs its handler's `then` with its handler's timeout and its submatches as environment; non-matching handlers yield nothing. |
| `EventProcessor.PlanStopsAtBadPattern` | internal/eventprocessor/service.go:96-100 | A pattern that does not compile stops the event. Only the handlers before it yield jobs, and the error names the pattern. |
| `EventProcessor.Service.constructor` | internal/eventprocessor/service.go:25-31 | The processor keeps the pool and configuration it is given and never fails. |
| `EventProcessor.Service.Handlers` | internal/eventprocessor/service.go:89-94 | An event type with no bucket has no handlers. In a validated snapshot, every handler returned is a configured handler whose `on` is that type. |
| `EventProcessor.Service.SubmitMatch` | internal/eventprocessor/service.go:107-117 | The job is `HandlerJob`, the `NewJob` of the capture environment, the handler's command and timeout, and a fresh id. A failed submission leaves the pool unchanged. A successful one appends the job to the submissions and to the tail of exactly the queue its id selects. It needs a free slot only in that queue. It is refused with "pool is closed" exactly when the pool is closed, and with a live context and an open pool it succeeds. |
| `EventProcessor.Service.VisitHandler` | internal/eventprocessor/service.go:96-117 | One handler's turn follows the plan's first step. A pattern that does not compile stops the plan there. A pattern that does not match skips the handler and changes nothing. A match submits exactly the plan's next job, appending it to the tail of the queue its id selects and to no other queue. A refused submission changes nothing and happens only when the context is done or the pool closed. A closed pool never queues the job, and a refusal's cause is "pool is closed" exactly when the pool is closed. If each queue had room for the planned jobs routed to it, it still has room for the jobs planned after this turn. |
| `EventProcessor.Service.Advance` | internal/eventprocessor/service.go:96-119 | One turn of the handler loop keeps its invariant when the loop goes on. The invariant is: a valid pool; submissions that are the planned jobs so far; each queue equal to its contents before the event followed by those jobs routed to it, in order; in each queue, room for the remaining planned jobs routed to it; and the plan split at the current handler. When the turn stops the loop, the submissions and the queues hold the planned prefix in that way, and a refusal needs a done context or a closed pool. A closed pool never queues the turn's job, and a refusal's cause is "pool is closed" exactly when the pool is closed. |
| `EventProcessor.Service.RunHandlers` | internal/eventprocessor/service.go:96-120 | It needs only that each queue has room for the planned jobs routed to it. When every pattern compiles, the loop submits exactly the planned jobs, in order, and each queue gains exactly its routed share of them at its tail. At a bad pattern the same holds for the planned jobs before it, and the pattern is reported. At a refused submission it holds for a proper prefix of the plan, which happens only with a done context or a closed pool. On a closed pool nothing is submitted and the queues are unchanged, and a submit failure's cause is "pool is closed" exactly when the pool is closed. |
| `EventProcessor.Service.Process` | internal/eventprocessor/service.go:88-121 | It needs room only in each planned job's own queue, counted per queue. An unconfigured event type submits nothing, leaves the queues as they were and succeeds. On success every planned job was submitted, in order, and each queue `w` is its old contents followed by the planned jobs routed to `w`, in order. A compile failure reports the first bad pattern after submitting, in the same way, the jobs of the handlers before it. A submit failure stops with a strict prefix of the planned jobs submitted and queued in that way, and cannot happen with a live context and an open pool. On a closed pool nothing is submitted and the queues are unchanged, and a submit failure's cause is "pool is closed" exactly when the pool is closed. Workers and results are untouched. |
| `Debouncer.StopTimer` | internal/utils/debouncer.go:68-82 | With no timer armed, nothing changes and nothing is emitted. Otherwise the timer and its channel are cleared and one timer stop is emitted. No other variable changes. |
| `Debouncer.Step` | internal/utils/debouncer.go:96-153 | A returned loop ignores the input. The loop keeps running exactly until Done arrives. Only a tick can start a job, and it starts at most one. |
| `Debouncer.StepKeepsInv` | internal/utils/debouncer.go:68-82 | Each turn keeps the loop's invariant. `timer` is set exactly when `tickC` is. An armed timer means no job handle is held. A held handle is the last started job's. A returned loop holds no timer. |
| `Debouncer.RunKeepsInv` | internal/utils/debouncer.go:84-173 | The invariant holds after any sequence of turns, and the job count never decreases. |
| `Debouncer.ReachableInv` | internal/utils/debouncer.go:84-173 | Every state the loop reaches satisfies the invariant. |
| `Debouncer.DoReplacesPending` | internal/utils/debouncer.go:113-129 | Do cancels the held job, stops the old timer, then arms exactly one timer with the new delay. The new function and parent become the pending ones. |
| `Debouncer.SingleTimer` | internal/utils/debouncer.go:68-82 | Over any run, every timer armed has been stopped again except the one armed now, so at most one timer is ever armed. |
| `Debouncer.BurstArmsLast` | internal/utils/debouncer.go:113-129 | After a burst of Do messages, only the last one's function and parent are pending and its timer is armed. Nothing has started. |
| `Debouncer.TickStartsPending` | internal/utils/debouncer.go:136-153 | A tick takes the pending function, clears it and disarms the timer. It starts the function only when it and the parent are set. |
| `Debouncer.BurstThenTickRunsLastOnce` | internal/utils/debouncer.go:136-153 | After a burst of Do messages, the tick starts exactly the last one's function with its parent, once; a further tick starts nothing. |
| `Debouncer.CancelDropsPending` | internal/utils/debouncer.go:99-110 | Cancel leaves no timer, no pending function or parent, and no job handle, so later ticks start nothing. |
| `Debouncer.TicksInert` | internal/utils/debouncer.go:136 | With no timer armed, ticks change nothing: a nil channel is never ready. |
| `Debouncer.StartedJobCancelledByNextInput` | internal/utils/debouncer.go:152-153 | A job a tick starts is cancelled by the next input if that input is Do, Cancel or Done. |
| `Debouncer.StartedJobIsCancelledNext` | internal/utils/debouncer.go:152-153 | The job a tick starts is cancelled by the first Do, Cancel or shutdown that follows, however many ticks come in between. |
| `Debouncer.DoneEndsLoop` | internal/utils/debouncer.go:87-94 | When the loop's context is done, the held job is cancelled and the timer disarmed. The loop returns, and later inputs have no effect. |
| `Debouncer.StoppedIgnoresInputs` | internal/utils/debouncer.go:94 | A returned loop ignores every input. |
| `Debouncer.JobBody` | internal/utils/debouncer.go:163-170 | A job whose scope is already cancelled returns without calling its function, and otherwise returns the function's error. |
| `Debouncer.Turn` | internal/utils/debouncer.go:96-153 | One turn for a message or a tick updates the loop's variables and emits the effects exactly as the step function says. |
| `Debouncer.Shutdown` | internal/utils/debouncer.go:87-94 | The shutdown branch ends in the state, with the effects, that the step function gives for Done. |
| `Debouncer.Run` | internal/utils/debouncer.go:84-173 | The loop over an input trace ends in the state, with the effects, of the step function folded over the trace, stopping at shutdown. |

## Left out

- Goroutines, channels, `errgroup` and `sync.Once`:
  - `Workerpool.Service.Run`, `EventProcessor.Service.Run` and the results collector (internal/eventprocessor/service.go:41-86) are not modelled.
  - A worker's turn and a submission are atomic steps.
  - Channel sends or receives that would wait forever are excluded by preconditions; they are not steps.
- `Workerpool.Service.Submit`: `queueSize == 0` (an unbuffered channel handing over to a waiting worker) is modelled as a queue that is always full, so a submission needs a closed pool or a done context.
- `Workerpool.Service.RunWorkerStep`: once the context is done, the worker exits. Go's `select` may still take one more job when both cases are ready; the model does not take it.
- `Workerpool.Service.RunWorkerStep`: a publish that would block while the context ends (internal/workerpool/service.go:119-120) is not modelled.
- `Workerpool.ExecuteJob`: the subprocess (`bash -c`, the environment built from `os.Environ` and `extraEnv`, combined output) is abstracted to a duration and an exit status (internal/workerpool/service.go:132-143). Cancellation of the pool's context while a command runs (`Jobs.Canceled`) is not produced.
- Panic recovery in `runWorker` and all logging are runtime behaviour.
- `Workerpool.HashRoutingKey`: the error that hashRoutingKey returns, and Submit's "cant calculate worker index" path (internal/workerpool/service.go:63-66, 156-157), are not modelled, because writing to an FNV hash never fails.
- `GoStrings.Utf8`: Go strings are byte sequences that need not be valid UTF-8; the model's strings are sequences of Unicode scalar values, so routing keys, event lines and handler fields holding invalid UTF-8 are not modelled.
- `Config.Load`: TOML decoding, `os.ExpandEnv` of the path, `os.Stat` and `filepath.Abs` are one oracle, `FileSource`.
- `Config.Config`: the mutex is omitted, because the model is sequential.
- `Workerpool.Service.constructor`: the capacity `queueSize*workersNum` is an unbounded integer; Go's `int` overflow for huge arguments is not modelled.
- The regular-expression engine, `uuid.New` and `os.Getenv` are parameters (`Regexp`, `uuid`, `procEnv`).
- The debouncer's timer duration and real time are not modelled: a Tick input stands for the armed timer firing. The `Do` and `Cancel` senders and the 16-slot message channel are not modelled; only the loop's view of the messages is.
- `Debouncer.Run`: the error the loop returns (`context.Cause`) and the job's error flowing into the errgroup are not modelled. `Debouncer.JobBody` gives only the job's own result.
- The event-socket reader, file watcher, signal handling and CLI are outside this core.

=== FILE: config.dfy ===
/** The configuration snapshot: handler and general-section validation, the
    grouping of handlers by event key, and the swappable snapshot holder. */
module Config {
  import opened Wrappers

  /** time.Duration: a count of nanoseconds. */
  type Duration = int

  /** One `[[handler]]` table: react to event `on` when its payload matches
      the regular expression `when` by running the shell command `then`. */
  datatype Event = Event(on: string, when: string, command: string, timeout: Option<Duration>)

  /** The `[general]` table. */
  datatype GeneralSection = GeneralSection(timeout: Option<Duration>)

  /** The violations a single table can be rejected for. */
  datatype FieldError =
    | OnRequired
    | WhenRequired
    | ThenRequired
    | TimeoutNotSet
    | TimeoutNotPositive
  {
    function Message(): string {
      match this
      case OnRequired => "'on' field is required"
      case WhenRequired => "'when' field is required"
      case ThenRequired => "'then' field is required"
      case TimeoutNotSet => "timeout has to be set"
      case TimeoutNotPositive => "timeout must be positive"
    }
  }

  /** The position of each check in the order the validators run them. */
  function CheckOrder(f: FieldError): nat {
    match f
    case OnRequired => 0
    case WhenRequired => 1
    case ThenRequired => 2
    case TimeoutNotSet => 3
    case TimeoutNotPositive => 4
  }

  /** Whether handler `e` breaks the rule that `f` names. */
  predicate EventViolates(e: Event, f: FieldError) {
    match f
    case OnRequired => e.on == ""
    case WhenRequired => e.when == ""
    case ThenRequired => e.command == ""
    case TimeoutNotSet => false
    case TimeoutNotPositive => e.timeout.Some? && e.timeout.value <= 0
  }

  /** Whether the general section breaks the rule that `f` names. */
  predicate GeneralViolates(g: GeneralSection, f: FieldError) {
    match f
    case TimeoutNotSet => g.timeout.None?
    case TimeoutNotPositive => g.timeout.Some? && g.timeout.value <= 0
    case _ => false
  }

  /** Event.Validate: the first violated rule, in check order, or None. */
  function ValidateEvent(e: Event): (r: Option<FieldError>)
    ensures r.Some? ==> EventViolates(e, r.value)
    ensures r.None? <==> forall f :: !EventViolates(e, f)
    ensures r.Some? ==> forall f :: CheckOrder(f) < CheckOrder(r.value) ==> !EventViolates(e, f)
  {
    if e.on == "" then assert EventViolates(e, OnRequired); Some(OnRequired)
    else if e.when == "" then assert EventViolates(e, WhenRequired); Some(WhenRequired)
    else if e.command == "" then assert EventViolates(e, ThenRequired); Some(ThenRequired)
    else if e.timeout.Some? && e.timeout.value <= 0 then
      assert EventViolates(e, TimeoutNotPositive); Some(TimeoutNotPositive)
    else None
  }

  /** GeneralSection.Validate: the first violated rule, in check order, or None. */
  function ValidateGeneral(g: GeneralSection): (r: Option<FieldError>)
    ensures r.Some? ==> GeneralViolates(g, r.value)
    ensures r.None? <==> forall f :: !GeneralViolates(g, f)
    ensures r.None? <==> g.timeout.Some? && g.timeout.value > 0
    ensures r.Some? ==> forall f :: CheckOrder(f) < CheckOrder(r.value) ==> !GeneralViolates(g, f)
  {
    if g.timeout.None? then assert GeneralViolates(g, TimeoutNotSet); Some(TimeoutNotSet)
    else if g.timeout.value <= 0 then
      assert GeneralViolates(g, TimeoutNotPositive); Some(TimeoutNotPositive)
    else None
  }

  /** Why RawConfig.Validate rejected a configuration. */
  datatype ValidationError =
    | NoEvents
    | EventFailed(index: nat, cause: FieldError)
    | GeneralFailed(cause: FieldError)

  /** The first handler, by position, that fails Event.Validate. */
  function FirstInvalid(es: seq<Event>): (r: Option<(nat, FieldError)>)
    ensures r.None? <==> forall i :: 0 <= i < |es| ==> ValidateEvent(es[i]).None?
    ensures r.Some? ==> r.value.0 < |es| && ValidateEvent(es[r.value.0]) == Some(r.value.1)
    ensures r.Some? ==> forall i :: 0 <= i < r.value.0 ==> ValidateEvent(es[i]).None?
  {
    if |es| == 0 then None
    else match ValidateEvent(es[0])
      case Some(f) => Some((0, f))
      case None =>
        match FirstInvalid(es[1..])
        case None => None
        case Some(p) => Some((p.0 + 1, p.1))
  }

  /** The section validated: the one given, or an empty one when absent. */
  function FilledGeneral(general: Option<GeneralSection>): (g: GeneralSection)
    ensures general.Some? ==> g == general.value
    ensures general.None? ==> g.timeout.None?
  {
    general.GetOr(GeneralSection(None))
  }

  /** The error RawConfig.Validate reports for these decoded tables, or None. */
  function Check(events: seq<Event>, general: Option<GeneralSection>): (r: Option<ValidationError>)
    ensures r == Some(NoEvents) <==> |events| == 0
    ensures r.Some? && r.value.EventFailed? ==>
      && r.value.index < |events|
      && ValidateEvent(events[r.value.index]) == Some(r.value.cause)
      && forall i :: 0 <= i < r.value.index ==> ValidateEvent(events[i]).None?
    ensures r.Some? && r.value.GeneralFailed? ==>
      && (forall i :: 0 <= i < |events| ==> ValidateEvent(events[i]).None?)
      && ValidateGeneral(FilledGeneral(general)) == Some(r.value.cause)
    ensures r.None? <==>
      && |events| > 0
      && (forall i :: 0 <= i < |events| ==> ValidateEvent(events[i]).None?)
      && ValidateGeneral(FilledGeneral(general)).None?
  {
    if |events| == 0 then Some(NoEvents)
    else match FirstInvalid(events)
      case Some(p) => Some(EventFailed(p.0, p.1))
      case None =>
        match ValidateGeneral(FilledGeneral(general))
        case Some(f) => Some(GeneralFailed(f))
        case None => None
  }

  /** A configuration without a [general] table is always rejected. */
  lemma MissingGeneralRejected(events: seq<Event>)
    requires |events| > 0
    requires forall i :: 0 <= i < |events| ==> ValidateEvent(events[i]).None?
    ensures Check(events, None) == Some(GeneralFailed(TimeoutNotSet))
  {
  }

  // ----- grouping handlers by their `on` key -----

  /** The handlers of `es` whose key is `k`, in their order in `es`. */
  function HandlersOn(es: seq<Event>, k: string): seq<Event>
  {
    if |es| == 0 then []
    else if es[|es| - 1].on == k then HandlersOn(es[..|es| - 1], k) + [es[|es| - 1]]
    else HandlersOn(es[..|es| - 1], k)
  }

  /** The distinct keys the handlers of `es` react to. */
  function OnKeys(es: seq<Event>): set<string> {
    set e | e in es :: e.on
  }

  /** OnEvents as RawConfig.Validate builds it. */
  function GroupByOn(es: seq<Event>): map<string, seq<Event>> {
    map k | k in OnKeys(es) :: HandlersOn(es, k)
  }

  /** Filtering by key distributes over concatenation, so each bucket keeps
      the handlers in their configured order. */
  lemma {:induction false} HandlersOnConcat(a: seq<Event>, b: seq<Event>, k: string)
    ensures HandlersOn(a + b, k) == HandlersOn(a, k) + HandlersOn(b, k)
    decreases |b|
  {
    if |b| == 0 {
      assert a + b == a;
    } else {
      var b' := b[..|b| - 1];
      assert (a + b)[..|a + b| - 1] == a + b';
      HandlersOnConcat(a, b', k);
    }
  }

  /** A handler is in bucket `k` exactly when it is configured and its key is `k`. */
  lemma {:induction false} HandlersOnMembers(es: seq<Event>, k: string, e: Event)
    ensures e in HandlersOn(es, k) <==> e in es && e.on == k
  {
    if |es| > 0 {
      var es' := es[..|es| - 1];
      HandlersOnMembers(es', k, e);
      assert es == es' + [es[|es| - 1]];
    }
  }

  /** Every handler of a key's bucket is configured and reacts to that key. */
  lemma BucketMembers(es: seq<Event>, k: string)
    ensures forall e :: e in HandlersOn(es, k) ==> e in es && e.on == k
  {
    forall e | e in HandlersOn(es, k) ensures e in es && e.on == k {
      HandlersOnMembers(es, k, e);
    }
  }

  /** A bucket never holds more handlers than are configured. */
  lemma {:induction false} HandlersOnLength(es: seq<Event>, k: string)
    ensures |HandlersOn(es, k)| <= |es|
  {
    if |es| > 0 {
      HandlersOnLength(es[..|es| - 1], k);
    }
  }

  /** Appending one handler appends it to its own bucket and to no other. */
  lemma {:induction false} GroupByOnSnoc(es: seq<Event>, e: Event)
    ensures GroupByOn(es + [e]) ==
      GroupByOn(es)[e.on := (if e.on in GroupByOn(es) then GroupByOn(es)[e.on] else []) + [e]]
  {
    var es' := es + [e];
    assert es'[..|es'| - 1] == es;
    assert OnKeys(es') == OnKeys(es) + {e.on};
    forall k | k in OnKeys(es) && k != e.on
      ensures HandlersOn(es', k) == HandlersOn(es, k)
    {
    }
    if e.on !in OnKeys(es) {
      if HandlersOn(es, e.on) != [] {
        HandlersOnMembers(es, e.on, HandlersOn(es, e.on)[0]);
        assert false;
      }
    }
  }

  /** `keys` lists each key of `m` exactly once. */
  ghost predicate ListsKeysOnce(keys: seq<string>, m: map<string, seq<Event>>) {
    && (forall i, j :: 0 <= i < j < |keys| ==> keys[i] != keys[j])
    && (forall k :: k in keys <==> k in m)
  }

  /** The elements of a repetition-free sequence are as many as its length. */
  lemma {:induction false} DistinctCount(keys: seq<string>)
    requires forall i, j :: 0 <= i < j < |keys| ==> keys[i] != keys[j]
    ensures |set k | k in keys| == |keys|
  {
    if |keys| > 0 {
      var rest := keys[..|keys| - 1];
      DistinctCount(rest);
      var last := keys[|keys| - 1];
      assert (set k | k in keys) == (set k | k in rest) + {last};
      assert last !in (set k | k in rest);
    }
  }

  /** EventKeys is as long as OnEvents has keys. */
  lemma EventKeysCount(keys: seq<string>, m: map<string, seq<Event>>)
    requires ListsKeysOnce(keys, m)
    ensures |keys| == |m|
  {
    DistinctCount(keys);
    assert (set k | k in keys) == m.Keys;
  }

  /** The loop of RawConfig.Validate that runs Event.Validate on each handler
      in turn and stops at the first failure. */
  method ValidateEach(es: seq<Event>) returns (r: Option<(nat, FieldError)>)
    ensures r == FirstInvalid(es)
  {
    var i := 0;
    while i < |es|
      invariant 0 <= i <= |es|
      invariant forall j :: 0 <= j < i ==> ValidateEvent(es[j]).None?
    {
      var e := ValidateEvent(es[i]);
      if e.Some? {
        return Some((i, e.value));
      }
      i := i + 1;
    }
    return None;
  }

  /** The loop of RawConfig.Validate that appends each handler to the bucket
      of its key. */
  method Group(es: seq<Event>) returns (m: map<string, seq<Event>>)
    ensures m == GroupByOn(es)
  {
    m := map[];
    var i := 0;
    while i < |es|
      invariant 0 <= i <= |es|
      invariant m == GroupByOn(es[..i])
    {
      var e := es[i];
      GroupByOnSnoc(es[..i], e);
      assert es[..i + 1] == es[..i] + [e];
      var bucket := if e.on in m then m[e.on] else [];
      m := m[e.on := bucket + [e]];
      i := i + 1;
    }
    assert es[..i] == es;
  }

  /** The loop of RawConfig.Validate that collects the keys of OnEvents; the
      iteration order of a Go map is unspecified, so each step takes any key
      not yet listed. */
  method ListKeys(m: map<string, seq<Event>>) returns (keys: seq<string>)
    ensures ListsKeysOnce(keys, m)
  {
    keys := [];
    var remaining := m.Keys;
    while remaining != {}
      invariant remaining <= m.Keys
      invariant forall k :: k in m ==> (k in keys <==> k !in remaining)
      invariant forall k :: k in keys ==> k in m
      invariant forall a, b :: 0 <= a < b < |keys| ==> keys[a] != keys[b]
      decreases |remaining|
    {
      var key :| key in remaining;
      keys := keys + [key];
      remaining := remaining - {key};
    }
  }

  // ----- the decoded configuration and its validation -----

  /** A decoded configuration file. Validate fills in OnEvents and EventKeys
      and supplies an empty [general] table when there is none. */
  class RawConfig {
    var events: seq<Event>
    var onEvents: map<string, seq<Event>>
    var eventKeys: seq<string>
    var general: Option<GeneralSection>

    /** The value the TOML decoder produces: the derived fields are nil. */
    constructor (events: seq<Event>, general: Option<GeneralSection>)
      ensures this.events == events && this.general == general
      ensures onEvents == map[] && eventKeys == []
    {
      this.events := events;
      this.general := general;
      onEvents := map[];
      eventKeys := [];
    }

    /** What a successful Validate establishes: the snapshot invariant. */
    ghost predicate Validated()
      reads this
    {
      && Check(events, general).None?
      && general.Some?
      && onEvents == GroupByOn(events)
      && ListsKeysOnce(eventKeys, onEvents)
    }

    /** RawConfig.Validate. It stops at the first failing check; once every
        handler passes, it fills OnEvents and EventKeys and the [general]
        table before checking that table, so those stay filled even when the
        general check then fails. */
    method Validate() returns (err: Option<ValidationError>)
      modifies this
      ensures err == Check(old(events), old(general))
      ensures events == old(events)
      ensures (|events| == 0 || FirstInvalid(events).Some?) ==>
        onEvents == old(onEvents) && eventKeys == old(eventKeys) && general == old(general)
      ensures (|events| > 0 && FirstInvalid(events).None?) ==>
        && onEvents == GroupByOn(events)
        && ListsKeysOnce(eventKeys, onEvents)
        && general == Some(FilledGeneral(old(general)))
      ensures err.None? ==> Validated()
    {
      if |events| == 0 {
        return Some(NoEvents);
      }
      var invalid := ValidateEach(events);
      if invalid.Some? {
        return Some(EventFailed(invalid.value.0, invalid.value.1));
      }
      onEvents := Group(events);
      eventKeys := ListKeys(onEvents);
      assert FirstInvalid(events).None?;
      if general.None? {
        general := Some(GeneralSection(None));
      }
      assert general == Some(FilledGeneral(old(general)));
      var g := ValidateGeneral(general.value);
      if g.Some? {
        return Some(GeneralFailed(g.value));
      }
      return None;
    }
  }

  // ----- loading and the snapshot holder -----

  /** What reading and decoding the file at the configured path yields; the
      filesystem and the TOML decoder are outside the model. */
  datatype FileSource =
    | Missing
    | Unreadable(reason: string)
    | Undecodable(reason: string)
    | Decoded(events: seq<Event>, general: Option<GeneralSection>)

  datatype LoadError =
    | NotFound
    | ReadFailed(reason: string)
    | DecodeFailed(reason: string)
    | Invalid(cause: ValidationError)

  /** Whether Load accepts what the file yields. */
  predicate Loads(source: FileSource) {
    source.Decoded? && Check(source.events, source.general).None?
  }

  /** Load: decode, then validate; a fresh validated snapshot or the reason. */
  method Load(source: FileSource) returns (r: Result<RawConfig, LoadError>)
    ensures r.Ok? <==> Loads(source)
    ensures r.Ok? ==> fresh(r.value) && r.value.Validated() && r.value.events == source.events
    ensures r.Ok? ==> r.value.general == source.general
    ensures source.Missing? ==> r == Err(NotFound)
    ensures source.Unreadable? ==> r == Err(ReadFailed(source.reason))
    ensures source.Undecodable? ==> r == Err(DecodeFailed(source.reason))
    ensures source.Decoded? && !Loads(source) ==>
      r == Err(Invalid(Check(source.events, source.general).value))
  {
    match source
    case Missing => return Err(NotFound);
    case Unreadable(reason) => return Err(ReadFailed(reason));
    case Undecodable(reason) => return Err(DecodeFailed(reason));
    case Decoded(events, general) =>
      var config := new RawConfig(events, general);
      var err := config.Validate();
      if err.Some? {
        return Err(Invalid(err.value));
      }
      return Ok(config);
  }

  /** The error of Reload, naming the path, and of NewConfig. */
  datatype ReloadError = CantReload(path: string, cause: LoadError)
  datatype InitError = CantInitialize(cause: ReloadError)

  /** Holds the current snapshot; Reload swaps it only when loading succeeds. */
  class Config {
    var cfg: RawConfig?
    const path: string

    /** The snapshot is present and validated. */
    ghost predicate Valid()
      reads this, cfg
    {
      cfg != null && cfg.Validated()
    }

    /** The snapshot is present and carries a positive general timeout. */
    predicate HasGeneralTimeout()
      reads this, cfg
    {
      && cfg != null && cfg.general.Some? && cfg.general.value.timeout.Some?
      && cfg.general.value.timeout.value > 0
    }

    /** A validated snapshot always carries the general timeout workers fall
        back on. */
    lemma ValidHasGeneralTimeout()
      requires Valid()
      ensures HasGeneralTimeout()
    {
      assert FilledGeneral(cfg.general) == cfg.general.value;
    }

    constructor Empty(path: string)
      ensures this.path == path && cfg == null
    {
      this.path := path;
      cfg := null;
    }

    method Get() returns (r: RawConfig?)
      ensures r == cfg
    {
      return cfg;
    }

    /** Config.Reload. `source` is what the file yields at this moment. */
    method Reload(source: FileSource) returns (err: Option<ReloadError>)
      modifies this
      ensures err.None? <==> Loads(source)
      ensures err.Some? ==> cfg == old(cfg) && err.value.path == path
      ensures err.None? ==> fresh(cfg) && cfg.Validated() && cfg.events == source.events
      ensures err.None? ==> cfg.general == source.general
      ensures old(Valid()) ==> Valid()
      ensures source.Missing? ==> err == Some(CantReload(path, NotFound))
      ensures source.Unreadable? ==> err == Some(CantReload(path, ReadFailed(source.reason)))
      ensures source.Undecodable? ==> err == Some(CantReload(path, DecodeFailed(source.reason)))
      ensures source.Decoded? && !Loads(source) ==>
        err == Some(CantReload(path, Invalid(Check(source.events, source.general).value)))
    {
      var loaded := Load(source);
      if loaded.Err? {
        return Some(CantReload(path, loaded.error));
      }
      cfg := loaded.value;
      return None;
    }
  }

  /** NewConfig: fails when the first load fails. */
  method NewConfig(path: string, source: FileSource) returns (r: Result<Config, InitError>)
    ensures r.Ok? <==> Loads(source)
    ensures r.Ok? ==> fresh(r.value) && r.value.path == path && r.value.Valid()
    ensures r.Ok? ==> fresh(r.value.cfg) && r.value.cfg.events == source.events
    ensures r.Ok? ==> r.value.cfg.general == source.general
    ensures source.Missing? ==> r == Err(CantInitialize(CantReload(path, NotFound)))
    ensures source.Unreadable? ==> r == Err(CantInitialize(CantReload(path, ReadFailed(source.reason))))
    ensures source.Undecodable? ==> r == Err(CantInitialize(CantReload(path, DecodeFailed(source.reason))))
    ensures source.Decoded? && !Loads(source) ==>
      r == Err(CantInitialize(CantReload(path, Invalid(Check(source.events, source.general).value))))
  {
    var c := new Config.Empty(path);
    var err := c.Reload(source);
    if err.Some? {
      return Err(CantInitialize(err.value));
    }
    return Ok(c);
  }
}

=== FILE: debouncer.dfy ===
/** The debouncer (utils/debouncer.go): a loop that owns a single timer. A Do
    message replaces whatever is pending and re-arms the timer; when the
    timer fires, the pending function starts as a job whose cancel handle the
    loop keeps, so the next Do, Cancel or shutdown cancels it. Time is not
    modelled: the timer firing is an input of its own. */
module Debouncer {
  import opened Wrappers

  /** Identities of DebounceFn values and of contexts, as the loop sees them. */
  type FnId = nat
  type CtxId = nat
  type Duration = int

  /** An armed timer; its channel is the loop's `tickC`. */
  datatype Timer = Timer(delay: Duration)

  /** What the loop's select can receive. */
  datatype Input =
    | Do(parent: Option<CtxId>, delay: Duration, fn: Option<FnId>)  // an opDo message
    | Cancel  // an opCancel message
    | Tick    // the armed timer's channel delivers
    | Done    // the loop's own context is done

  /** What the loop does that can be seen from outside. */
  datatype Effect =
    | JobCancelled(job: nat)                      // cancelPending() is called
    | TimerStopped                                // stopTimer disarms a timer
    | TimerArmed(delay: Duration)                 // time.NewTimer(delay)
    | JobStarted(job: nat, fn: FnId, parent: CtxId)  // eg.Go with a child of parent

  /** The loop's local variables; jobs are numbered in the order they start,
      `launched` of them so far, and `running` turns false when it returns. */
  datatype State = State(
    timer: Option<Timer>, tickC: Option<Timer>,
    pending: Option<FnId>, parent: Option<CtxId>,
    cancelPending: Option<nat>, launched: nat, running: bool)

  function Initial(): State {
    State(None, None, None, None, None, 0, true)
  }

  /** stopTimer: disarm the timer if there is one; with none, nothing. */
  function StopTimer(s: State): (r: (State, seq<Effect>))
    ensures s.timer.None? ==> r == (s, [])
    ensures s.timer.Some? ==> r.0.timer.None? && r.0.tickC.None? && r.1 == [TimerStopped]
    ensures r.0.pending == s.pending && r.0.parent == s.parent && r.0.cancelPending == s.cancelPending
    ensures r.0.launched == s.launched && r.0.running == s.running
  {
    if s.timer.None? then (s, []) else (s.(timer := None, tickC := None), [TimerStopped])
  }

  /** Cancel the job that last started, if its handle is still held, and drop
      the handle. */
  function CancelRunning(s: State): (State, seq<Effect>) {
    if s.cancelPending.Some? then (s.(cancelPending := None), [JobCancelled(s.cancelPending.value)])
    else (s, [])
  }

  /** One turn of the loop. Once it has returned, nothing happens. A Tick with
      no timer armed never happens either: a nil channel is never ready. */
  function Step(s: State, input: Input): (r: (State, seq<Effect>))
    ensures !s.running ==> r == (s, [])
    ensures r.0.running <==> s.running && !input.Done?
    ensures r.0.launched == s.launched || (input.Tick? && r.0.launched == s.launched + 1)
  {
    if !s.running then (s, [])
    else match input
      case Done =>
        var cancelled := if s.cancelPending.Some? then [JobCancelled(s.cancelPending.value)] else [];
        var (s2, stopped) := StopTimer(s);
        (s2.(running := false), cancelled + stopped)
      case Cancel =>
        var (s1, cancelled) := CancelRunning(s);
        var (s2, stopped) := StopTimer(s1);
        (s2.(pending := None, parent := None), cancelled + stopped)
      case Do(parent, delay, fn) =>
        var (s1, cancelled) := CancelRunning(s);
        var (s2, stopped) := StopTimer(s1);
        (s2.(pending := fn, parent := parent, timer := Some(Timer(delay)), tickC := Some(Timer(delay))),
         cancelled + stopped + [TimerArmed(delay)])
      case Tick =>
        if s.tickC.None? then (s, [])
        else
          var fn := s.pending;
          var (s2, stopped) := StopTimer(s.(pending := None));
          if fn.None? || s2.parent.None? then (s2, stopped)
          else
            (s2.(cancelPending := Some(s2.launched), launched := s2.launched + 1),
             stopped + [JobStarted(s2.launched, fn.value, s2.parent.value)])
  }

  /** The loop over a sequence of inputs. */
  function RunFrom(s: State, inputs: seq<Input>): (State, seq<Effect>)
    decreases |inputs|
  {
    if |inputs| == 0 then (s, [])
    else
      var (s1, e1) := Step(s, inputs[0]);
      var (s2, e2) := RunFrom(s1, inputs[1..]);
      (s2, e1 + e2)
  }

  lemma {:induction false} RunFromConcat(s: State, a: seq<Input>, b: seq<Input>)
    ensures var (s1, e1) := RunFrom(s, a);
      var (s2, e2) := RunFrom(s1, b);
      RunFrom(s, a + b) == (s2, e1 + e2)
    decreases |a|
  {
    if |a| == 0 {
      assert a + b == b;
      var (s2, e2) := RunFrom(s, b);
      assert [] + e2 == e2;
    } else {
      assert (a + b)[0] == a[0];
      assert (a + b)[1..] == a[1..] + b;
      var (t, e) := Step(s, a[0]);
      RunFromConcat(t, a[1..], b);
      var (s1, e1) := RunFrom(t, a[1..]);
      var (s2, e2) := RunFrom(s1, b);
      assert e + (e1 + e2) == (e + e1) + e2;
    }
  }

  /** The jobs started in a run of effects, in order. */
  function Started(effects: seq<Effect>): seq<Effect> {
    if |effects| == 0 then []
    else (if effects[0].JobStarted? then [effects[0]] else []) + Started(effects[1..])
  }

  lemma {:induction false} StartedConcat(a: seq<Effect>, b: seq<Effect>)
    ensures Started(a + b) == Started(a) + Started(b)
    decreases |a|
  {
    if |a| == 0 {
      assert a + b == b;
    } else {
      assert (a + b)[0] == a[0];
      assert (a + b)[1..] == a[1..] + b;
      StartedConcat(a[1..], b);
    }
  }

  // ----- the loop's invariant -----

  /** At most one timer, and its channel is the one the loop selects on; an
      armed timer means no job handle is held; a held handle belongs to the
      job that started last; a loop that returned left no timer armed. */
  predicate Inv(s: State) {
    && s.timer == s.tickC
    && (s.timer.Some? ==> s.cancelPending.None?)
    && (s.cancelPending.Some? ==> s.cancelPending.value + 1 == s.launched)
    && (!s.running ==> s.timer.None?)
  }

  lemma StepKeepsInv(s: State, input: Input)
    requires Inv(s)
    ensures Inv(Step(s, input).0)
    ensures Step(s, input).0.launched >= s.launched
  {
  }

  lemma {:induction false} RunKeepsInv(s: State, inputs: seq<Input>)
    requires Inv(s)
    ensures Inv(RunFrom(s, inputs).0)
    ensures RunFrom(s, inputs).0.launched >= s.launched
    decreases |inputs|
  {
    if |inputs| > 0 {
      StepKeepsInv(s, inputs[0]);
      RunKeepsInv(Step(s, inputs[0]).0, inputs[1..]);
    }
  }

  /** The invariant holds in every state the loop reaches. */
  lemma ReachableInv(inputs: seq<Input>)
    ensures Inv(RunFrom(Initial(), inputs).0)
  {
    RunKeepsInv(Initial(), inputs);
  }

  /** Do cancels the held job, disarms the old timer, and only then arms a
      single new one; the new function and parent replace the pending ones. */
  lemma DoReplacesPending(s: State, parent: Option<CtxId>, delay: Duration, fn: Option<FnId>)
    requires s.running
    ensures var (s', e) := Step(s, Do(parent, delay, fn));
      && s'.pending == fn && s'.parent == parent
      && s'.timer == Some(Timer(delay)) && s'.tickC == s'.timer
      && s'.cancelPending.None? && s'.launched == s.launched && s'.running
      && e == (if s.cancelPending.Some? then [JobCancelled(s.cancelPending.value)] else [])
              + (if s.timer.Some? then [TimerStopped] else []) + [TimerArmed(delay)]
  {
  }

  /** How many timers an effect log arms, less how many it stops. */
  function TimerBalance(effects: seq<Effect>): int {
    if |effects| == 0 then 0
    else
      var here := if effects[0].TimerArmed? then 1 else if effects[0].TimerStopped? then -1 else 0;
      here + TimerBalance(effects[1..])
  }

  lemma {:induction false} TimerBalanceConcat(a: seq<Effect>, b: seq<Effect>)
    ensures TimerBalance(a + b) == TimerBalance(a) + TimerBalance(b)
    decreases |a|
  {
    if |a| == 0 {
      assert a + b == b;
    } else {
      assert (a + b)[0] == a[0];
      assert (a + b)[1..] == a[1..] + b;
      TimerBalanceConcat(a[1..], b);
    }
  }

  function Armed(s: State): int {
    if s.timer.Some? then 1 else 0
  }

  lemma StepTimerBalance(s: State, input: Input)
    ensures var (s', e) := Step(s, input);
      Armed(s) + TimerBalance(e) == Armed(s')
  {
    var (s', e) := Step(s, input);
    if s.running {
      match input
      case Done =>
        var cancelled := if s.cancelPending.Some? then [JobCancelled(s.cancelPending.value)] else [];
        TimerBalanceConcat(cancelled, StopTimer(s).1);
      case Cancel =>
        var (s1, cancelled) := CancelRunning(s);
        TimerBalanceConcat(cancelled, StopTimer(s1).1);
      case Do(parent, delay, fn) =>
        var (s1, cancelled) := CancelRunning(s);
        var stopped := StopTimer(s1).1;
        TimerBalanceConcat(cancelled + stopped, [TimerArmed(delay)]);
        TimerBalanceConcat(cancelled, stopped);
      case Tick =>
        if s.tickC.Some? {
          var (s2, stopped) := StopTimer(s.(pending := None));
          if s.pending.Some? && s2.parent.Some? {
            TimerBalanceConcat(stopped, [JobStarted(s2.launched, s.pending.value, s2.parent.value)]);
          }
        }
    }
  }

  lemma {:induction false} RunTimerBalance(s: State, inputs: seq<Input>)
    ensures var (s', e) := RunFrom(s, inputs);
      Armed(s) + TimerBalance(e) == Armed(s')
    decreases |inputs|
  {
    if |inputs| > 0 {
      var (s1, e1) := Step(s, inputs[0]);
      StepTimerBalance(s, inputs[0]);
      RunTimerBalance(s1, inputs[1..]);
      var (s2, e2) := RunFrom(s1, inputs[1..]);
      TimerBalanceConcat(e1, e2);
    }
  }

  /** At most one timer at a time: every timer the loop has armed has been
      stopped again, except the one armed now, if any. */
  lemma SingleTimer(inputs: seq<Input>)
    ensures var (s, e) := RunFrom(Initial(), inputs);
      TimerBalance(e) == (if s.timer.Some? then 1 else 0)
  {
    RunTimerBalance(Initial(), inputs);
  }

  // ----- debouncing -----

  /** A burst of Do messages leaves the last one's function and parent
      pending, its timer armed, and starts nothing. */
  lemma {:induction false} BurstArmsLast(s: State, burst: seq<Input>)
    requires s.running && |burst| > 0
    requires forall i :: 0 <= i < |burst| ==> burst[i].Do?
    ensures var (s', effects) := RunFrom(s, burst);
      var last := burst[|burst| - 1];
      && s'.running && s'.timer == Some(Timer(last.delay)) && s'.tickC == Some(Timer(last.delay))
      && s'.pending == last.fn && s'.parent == last.parent
      && s'.launched == s.launched
      && Started(effects) == []
    decreases |burst|
  {
    var (s1, e1) := Step(s, burst[0]);
    assert Started(e1) == [] by {
      var (c1, ec) := CancelRunning(s);
      var (c2, es) := StopTimer(c1);
      assert e1 == ec + es + [TimerArmed(burst[0].delay)];
      StartedConcat(ec + es, [TimerArmed(burst[0].delay)]);
      StartedConcat(ec, es);
    }
    var rest := burst[1..];
    if |rest| == 0 {
      assert RunFrom(s1, rest) == (s1, []);
      assert e1 + [] == e1;
    } else {
      assert forall i :: 0 <= i < |rest| ==> rest[i] == burst[i + 1];
      BurstArmsLast(s1, rest);
      var (s2, e2) := RunFrom(s1, rest);
      StartedConcat(e1, e2);
    }
  }

  /** The expected start of a tick, from the state the tick meets. */
  function TickStarts(s: State): seq<Effect> {
    if s.pending.Some? && s.parent.Some? then [JobStarted(s.launched, s.pending.value, s.parent.value)] else []
  }

  /** A tick with the timer armed starts the pending function, if it and
      the parent are set, and disarms the timer. */
  lemma TickStartsPending(s: State)
    requires s.running && s.timer.Some? && s.tickC.Some?
    ensures Started(Step(s, Tick).1) == TickStarts(s)
    ensures Step(s, Tick).0.tickC.None? && Step(s, Tick).0.pending.None?
  {
    var (s2, stopped) := StopTimer(s.(pending := None));
    assert stopped == [TimerStopped];
    if s.pending.Some? && s.parent.Some? {
      StartedConcat(stopped, [JobStarted(s.launched, s.pending.value, s.parent.value)]);
    }
  }

  /** Debouncing: after a burst of Do messages, the tick starts exactly the
      last one's function, once and with its parent, when both are set, and
      nothing otherwise; a further tick starts nothing. */
  lemma BurstThenTickRunsLastOnce(s: State, burst: seq<Input>)
    requires s.running && |burst| > 0
    requires forall i :: 0 <= i < |burst| ==> burst[i].Do?
    ensures var last := burst[|burst| - 1];
      var expected :=
        if last.fn.Some? && last.parent.Some? then [JobStarted(s.launched, last.fn.value, last.parent.value)]
        else [];
      && Started(RunFrom(s, burst + [Tick]).1) == expected
      && Started(RunFrom(s, burst + [Tick, Tick]).1) == expected
  {
    BurstArmsLast(s, burst);
    var (s1, e1) := RunFrom(s, burst);
    TickStartsPending(s1);
    var (s2, e2) := Step(s1, Tick);
    TicksInert(s2, [Tick]);
    TicksInert(s2, []);
    assert RunFrom(s1, [Tick]) == (s2, e2 + []);
    assert RunFrom(s1, [Tick, Tick]) == (s2, e2 + []);
    RunFromConcat(s, burst, [Tick]);
    RunFromConcat(s, burst, [Tick, Tick]);
    StartedConcat(e1, e2 + []);
    assert e2 + [] == e2;
  }

  /** Cancel drops everything pending: no timer, no function, no parent, no
      job handle; so the ticks that follow start nothing. */
  lemma CancelDropsPending(s: State, ticks: nat)
    requires Inv(s) && s.running
    ensures var s' := Step(s, Cancel).0;
      && s'.timer.None? && s'.tickC.None? && s'.pending.None? && s'.parent.None?
      && s'.cancelPending.None?
      && Started(RunFrom(s, [Cancel] + seq(ticks, _ => Tick)).1) == []
  {
    var s' := Step(s, Cancel).0;
    TicksInert(s', seq(ticks, _ => Tick));
    RunFromConcat(s, [Cancel], seq(ticks, _ => Tick));
    var (c1, ec) := CancelRunning(s);
    var (c2, es) := StopTimer(c1);
    StartedConcat(ec, es);
    assert RunFrom(s, [Cancel]) == (s', (ec + es) + []);
    StartedConcat(ec + es, []);
  }

  /** With no timer armed, ticks change nothing. */
  lemma {:induction false} TicksInert(s: State, ticks: seq<Input>)
    requires s.tickC.None?
    requires forall i :: 0 <= i < |ticks| ==> ticks[i] == Tick
    ensures RunFrom(s, ticks) == (s, [])
    decreases |ticks|
  {
    if |ticks| > 0 {
      var rest := ticks[1..];
      assert forall i :: 0 <= i < |rest| ==> rest[i] == ticks[i + 1];
      TicksInert(s, rest);
      assert Step(s, ticks[0]) == (s, []);
      var none: seq<Effect> := [];
      assert none + none == none;
    }
  }

  /** With no timer armed, ticks followed by one more input act as that
      input alone. */
  lemma TicksThenStep(s: State, ticks: seq<Input>, next: Input)
    requires s.tickC.None?
    requires forall i :: 0 <= i < |ticks| ==> ticks[i] == Tick
    ensures RunFrom(s, ticks + [next]) == Step(s, next)
  {
    TicksInert(s, ticks);
    RunFromConcat(s, ticks, [next]);
    var (s2, e2) := Step(s, next);
    assert [next][1..] == [];
    assert RunFrom(s, [next]) == (s2, e2 + []);
    var none: seq<Effect> := [];
    assert none + (e2 + []) == e2;
  }

  /** The job a tick starts is cancelled by a Do, Cancel or shutdown that
      comes right after the tick. */
  lemma StartedJobCancelledByNextInput(s: State, next: Input)
    requires Inv(s) && !next.Tick?
    ensures var (s1, e1) := Step(s, Tick);
      forall id, fn, parent :: JobStarted(id, fn, parent) in e1 ==> JobCancelled(id) in Step(s1, next).1
  {
  }

  /** The job a tick starts is cancelled by whichever Do, Cancel or shutdown
      comes next, however many ticks come in between. */
  lemma StartedJobIsCancelledNext(s: State, ticks: seq<Input>, next: Input)
    requires Inv(s) && !next.Tick?
    requires forall i :: 0 <= i < |ticks| ==> ticks[i] == Tick
    ensures var (s1, e1) := Step(s, Tick);
      forall id, fn, parent :: JobStarted(id, fn, parent) in e1 ==>
        JobCancelled(id) in RunFrom(s1, ticks + [next]).1
  {
    var (s1, e1) := Step(s, Tick);
    if s.tickC.Some? {
      TickStartsPending(s);
      TicksThenStep(s1, ticks, next);
      StartedJobCancelledByNextInput(s, next);
    } else {
      assert Step(s, Tick) == (s, []);
    }
  }

  /** Shutdown: the held job is cancelled, the timer disarmed, and the loop
      returns; nothing it receives afterwards has any effect. */
  lemma DoneEndsLoop(s: State, later: seq<Input>)
    requires Inv(s) && s.running
    ensures var (s1, e1) := Step(s, Done);
      && !s1.running && s1.timer.None? && s1.tickC.None?
      && (s.cancelPending.Some? ==> JobCancelled(s.cancelPending.value) in e1)
      && RunFrom(s1, later) == (s1, [])
  {
    StoppedIgnoresInputs(Step(s, Done).0, later);
  }

  lemma {:induction false} StoppedIgnoresInputs(s: State, inputs: seq<Input>)
    requires !s.running
    ensures RunFrom(s, inputs) == (s, [])
    decreases |inputs|
  {
    if |inputs| > 0 {
      StoppedIgnoresInputs(s, inputs[1..]);
      assert Step(s, inputs[0]) == (s, []);
      var none: seq<Effect> := [];
      assert none + none == none;
    }
  }

  // ----- the job body -----

  /** What a started job does: it returns at once when its scope is already
      cancelled, and otherwise calls fn, returning fn's error. The job's
      scope is cancelled once the loop has emitted JobCancelled for it (see
      StartedJobIsCancelledNext) or the parent context its Do carried has
      ended, so `scopeDone` says whether one of those came before the job's
      goroutine ran. */
  datatype JobRun = Skipped | Called(err: Option<string>)

  function JobBody(scopeDone: bool, fnErr: Option<string>): (r: JobRun)
    ensures r.Skipped? <==> scopeDone
    ensures r.Called? ==> r.err == fnErr
  {
    if scopeDone then Skipped else Called(fnErr)
  }

  // ----- the loop itself -----

  lemma RunFromUnfold(s: State, inputs: seq<Input>, i: nat)
    requires i < |inputs|
    ensures var (s1, e1) := Step(s, inputs[i]);
      var (s2, e2) := RunFrom(s1, inputs[i + 1..]);
      RunFrom(s, inputs[i..]) == (s2, e1 + e2)
  {
    assert inputs[i..][0] == inputs[i];
    assert inputs[i..][1..] == inputs[i + 1..];
  }

  /** One turn of the loop for a message or a tick, on the loop's variables. */
  method Turn(timer0: Option<Timer>, tickC0: Option<Timer>, pending0: Option<FnId>, parent0: Option<CtxId>,
              cancelPending0: Option<nat>, launched0: nat, input: Input)
    returns (timer: Option<Timer>, tickC: Option<Timer>, pending: Option<FnId>, parent: Option<CtxId>,
             cancelPending: Option<nat>, launched: nat, step: seq<Effect>)
    requires !input.Done?
    ensures Step(State(timer0, tickC0, pending0, parent0, cancelPending0, launched0, true), input)
      == (State(timer, tickC, pending, parent, cancelPending, launched, true), step)
  {
    ghost var s := State(timer0, tickC0, pending0, parent0, cancelPending0, launched0, true);
    timer, tickC, pending, parent, cancelPending, launched := timer0, tickC0, pending0, parent0, cancelPending0, launched0;
    step := [];
    match input {
      case Cancel =>
        if cancelPending.Some? {
          step := step + [JobCancelled(cancelPending.value)];
          cancelPending := None;
        }
        if timer.Some? {
          timer, tickC := None, None;
          step := step + [TimerStopped];
        }
        pending, parent := None, None;
      case Do(p, delay, fn) =>
        if cancelPending.Some? {
          step := step + [JobCancelled(cancelPending.value)];
          cancelPending := None;
        }
        if timer.Some? {
          timer, tickC := None, None;
          step := step + [TimerStopped];
        }
        pending, parent := fn, p;
        timer := Some(Timer(delay));
        tickC := timer;
        step := step + [TimerArmed(delay)];
      case Tick =>
        if tickC.Some? {
          var fn := pending;
          pending := None;
          if timer.Some? {
            timer, tickC := None, None;
            step := step + [TimerStopped];
          }
          if fn.Some? && parent.Some? {
            cancelPending := Some(launched);
            step := step + [JobStarted(launched, fn.value, parent.value)];
            launched := launched + 1;
          }
        }
    }
    assert Step(s, input).0 == State(timer, tickC, pending, parent, cancelPending, launched, true);
    assert Step(s, input).1 == step;
  }

  /** The shutdown turn: cancel the held job, stop the timer, return. */
  method Shutdown(timer0: Option<Timer>, tickC0: Option<Timer>, pending: Option<FnId>, parent: Option<CtxId>,
                  cancelPending: Option<nat>, launched: nat)
    returns (final: State, step: seq<Effect>)
    ensures Step(State(timer0, tickC0, pending, parent, cancelPending, launched, true), Done) == (final, step)
  {
    ghost var s := State(timer0, tickC0, pending, parent, cancelPending, launched, true);
    var timer, tickC := timer0, tickC0;
    step := [];
    if cancelPending.Some? {
      step := step + [JobCancelled(cancelPending.value)];
    }
    if timer.Some? {
      timer, tickC := None, None;
      step := step + [TimerStopped];
    }
    final := State(timer, tickC, pending, parent, cancelPending, launched, false);
    assert Step(s, Done).0 == final;
    assert Step(s, Done).1 == step;
  }

  /** Run's loop goroutine over the messages, ticks and shutdown it receives,
      in the order the select takes them; the variables are those of the
      loop, and `final` is their value when the inputs run out or it returns. */
  method Run(inputs: seq<Input>) returns (effects: seq<Effect>, final: State)
    ensures RunFrom(Initial(), inputs) == (final, effects)
  {
    var timer: Option<Timer> := None;
    var tickC: Option<Timer> := None;
    var pending: Option<FnId> := None;
    var parent: Option<CtxId> := None;
    var cancelPending: Option<nat> := None;
    var launched: nat := 0;
    effects := [];
    var i := 0;
    assert [] + RunFrom(Initial(), inputs).1 == RunFrom(Initial(), inputs).1;
    while i < |inputs|
      invariant 0 <= i <= |inputs|
      invariant RunFrom(Initial(), inputs).0
        == RunFrom(State(timer, tickC, pending, parent, cancelPending, launched, true), inputs[i..]).0
      invariant RunFrom(Initial(), inputs).1
        == effects + RunFrom(State(timer, tickC, pending, parent, cancelPending, launched, true), inputs[i..]).1
    {
      ghost var s := State(timer, tickC, pending, parent, cancelPending, launched, true);
      RunFromUnfold(s, inputs, i);
      var step: seq<Effect>;
      if inputs[i].Done? {
        final, step := Shutdown(timer, tickC, pending, parent, cancelPending, launched);
        StoppedIgnoresInputs(final, inputs[i + 1..]);
        assert step + [] == step;
        effects := effects + step;
        return;
      }
      timer, tickC, pending, parent, cancelPending, launched, step :=
        Turn(timer, tickC, pending, parent, cancelPending, launched, inputs[i]);
      ghost var rest := RunFrom(State(timer, tickC, pending, parent, cancelPending, launched, true), inputs[i + 1..]);
      assert effects + (step + rest.1) == (effects + step) + rest.1;
      effects := effects + step;
      i := i + 1;
    }
    final := State(timer, tickC, pending, parent, cancelPending, launched, true);
    assert inputs[i..] == [];
    assert effects + [] == effects;
  }
}

=== FILE: eventprocessor.dfy ===
/** The event processor's dispatch step (eventprocessor/service.go, process):
    for one compositor event, every handler registered for its type whose
    pattern matches the event's context becomes a job submitted to the pool,
    with the pattern's submatches as REGEX_GROUP_<i> variables. */
module EventProcessor {
  import opened Wrappers
  import opened GoStrings
  import opened Jobs
  import Config
  import Hypr
  import Workerpool

  /** What Go's regexp package does with one handler's pattern on one event
      context: the pattern does not compile, or it compiles and does not
      match, or it matches with these submatches (the whole match first, then
      each group in order, "" for a group that took no part). */
  datatype RegexOutcome = CompileError | NoMatch | Matched(submatches: seq<string>)

  /** The regexp engine, as the outcome for a (pattern, context) pair. */
  type Regexp = (string, string) -> RegexOutcome

  // ----- capture variables -----

  const GroupPrefix: string := "REGEX_GROUP_"

  /** The variable that carries submatch `i`. */
  function GroupName(i: nat): (name: string)
    ensures HasPrefix(name, GroupPrefix)
  {
    GroupPrefix + Itoa(i)
  }

  /** Different submatches land in different variables. */
  lemma GroupNameInjective(i: nat, j: nat)
    requires GroupName(i) == GroupName(j)
    ensures i == j
  {
    assert Itoa(i) == GroupName(i)[|GroupPrefix|..];
    assert Itoa(j) == GroupName(j)[|GroupPrefix|..];
    ItoaInjective(i, j);
  }

  /** The job environment built from the submatches, one variable each. */
  function CaptureEnv(submatches: seq<string>): (env: map<string, string>)
    ensures forall i :: 0 <= i < |submatches| ==> GroupName(i) in env
    decreases |submatches|
  {
    if |submatches| == 0 then map[]
    else CaptureEnv(submatches[..|submatches| - 1])[GroupName(|submatches| - 1) := submatches[|submatches| - 1]]
  }

  /** The environment has exactly the variables REGEX_GROUP_0 ..
      REGEX_GROUP_<n-1>. */
  lemma {:induction false} CaptureEnvKeys(submatches: seq<string>)
    ensures CaptureEnv(submatches).Keys == set i | 0 <= i < |submatches| :: GroupName(i)
    decreases |submatches|
  {
    if |submatches| > 0 {
      var n := |submatches| - 1;
      CaptureEnvKeys(submatches[..n]);
      var before := set i | 0 <= i < n :: GroupName(i);
      assert CaptureEnv(submatches).Keys == before + {GroupName(n)};
      assert (set i | 0 <= i < n + 1 :: GroupName(i)) == before + {GroupName(n)};
    }
  }

  /** REGEX_GROUP_<i> holds submatch i, the whole match being 0. */
  lemma {:induction false} CaptureEnvValues(submatches: seq<string>)
    ensures forall i :: 0 <= i < |submatches| ==>
      GroupName(i) in CaptureEnv(submatches) && CaptureEnv(submatches)[GroupName(i)] == submatches[i]
    decreases |submatches|
  {
    if |submatches| > 0 {
      var n := |submatches| - 1;
      var init := submatches[..n];
      CaptureEnvValues(init);
      forall i | 0 <= i < n
        ensures GroupName(i) in CaptureEnv(submatches) && CaptureEnv(submatches)[GroupName(i)] == submatches[i]
      {
        if GroupName(i) == GroupName(n) {
          GroupNameInjective(i, n);
        }
        assert CaptureEnv(init)[GroupName(i)] == init[i];
      }
    }
  }

  /** The loop that fills the job environment from the submatches. */
  method BuildEnv(submatches: seq<string>) returns (env: map<string, string>)
    ensures env == CaptureEnv(submatches)
  {
    env := map[];
    var k := 0;
    while k < |submatches|
      invariant 0 <= k <= |submatches|
      invariant env == CaptureEnv(submatches[..k])
    {
      assert submatches[..k + 1][..k] == submatches[..k];
      env := env[GroupName(k) := submatches[k]];
      k := k + 1;
    }
    assert submatches[..k] == submatches;
  }

  // ----- the jobs one event yields -----

  /** The job process submits for a handler whose pattern matched: NewJob of
      the capture environment, the handler's command and timeout and the
      UUID, with no routing template, so the UUID is also the routing key. */
  function HandlerJob(h: Config.Event, submatches: seq<string>, id: string): (j: Job)
    ensures j.id == id && j.routingKey == id
    ensures j.exec == h.command && j.timeout == h.timeout && j.extraEnv == CaptureEnv(submatches)
  {
    Job(id, id, CaptureEnv(submatches), h.command, h.timeout)
  }

  /** HandlerJob is the job NewJob builds from the same parts. */
  lemma HandlerJobIsNewJob(h: Config.Event, submatches: seq<string>, id: string)
    ensures HandlerJob(h, submatches, id) == NewJob(CaptureEnv(submatches), h.command, h.timeout, None, id, map[])
  {
  }

  /** The jobs `process` creates for `handlers`, in order, and the pattern
      that stopped it if one failed to compile. `uuid(k)` is the UUID drawn
      for the k-th job of the event; `made` jobs came before these. */
  datatype Plan = Plan(jobs: seq<Job>, failure: Option<string>)

  function PlanJobs(handlers: seq<Config.Event>, context: string, regexp: Regexp,
                    uuid: nat -> string, made: nat): (p: Plan)
    ensures |p.jobs| <= |handlers|
    decreases |handlers|
  {
    if |handlers| == 0 then Plan([], None)
    else
      var h := handlers[0];
      match regexp(h.when, context)
      case CompileError =>
        Plan([], Some(h.when))
      case NoMatch =>
        PlanJobs(handlers[1..], context, regexp, uuid, made)
      case Matched(submatches) =>
        var job := HandlerJob(h, submatches, uuid(made));
        var tail := PlanJobs(handlers[1..], context, regexp, uuid, made + 1);
        Plan([job] + tail.jobs, tail.failure)
  }

  /** The event fails exactly when some handler's pattern does not compile,
      and the error names such a pattern. */
  lemma {:induction false} PlanFailsOnBadPattern(handlers: seq<Config.Event>, context: string,
                                                 regexp: Regexp, uuid: nat -> string, made: nat)
    ensures var p := PlanJobs(handlers, context, regexp, uuid, made);
      && (p.failure.None? <==>
            forall i :: 0 <= i < |handlers| ==> !regexp(handlers[i].when, context).CompileError?)
      && (p.failure.Some? ==>
            exists i :: 0 <= i < |handlers| && regexp(handlers[i].when, context).CompileError?
                        && handlers[i].when == p.failure.value)
    decreases |handlers|
  {
    if |handlers| > 0 {
      var rest := handlers[1..];
      assert forall i :: 0 <= i < |rest| ==> rest[i] == handlers[i + 1];
      match regexp(handlers[0].when, context)
      case CompileError =>
        assert regexp(handlers[0].when, context).CompileError?;
      case NoMatch =>
        PlanFailsOnBadPattern(rest, context, regexp, uuid, made);
        var p := PlanJobs(rest, context, regexp, uuid, made);
        if p.failure.Some? {
          var i :| 0 <= i < |rest| && regexp(rest[i].when, context).CompileError? && rest[i].when == p.failure.value;
          assert handlers[i + 1] == rest[i];
        }
      case Matched(submatches) =>
        PlanFailsOnBadPattern(rest, context, regexp, uuid, made + 1);
        var p := PlanJobs(rest, context, regexp, uuid, made + 1);
        if p.failure.Some? {
          var i :| 0 <= i < |rest| && regexp(rest[i].when, context).CompileError? && rest[i].when == p.failure.value;
          assert handlers[i + 1] == rest[i];
        }
    }
  }

  /** The k-th job of the event carries the k-th UUID drawn, as its id and,
      with no routing template, as its routing key. */
  lemma {:induction false} PlanJobIds(handlers: seq<Config.Event>, context: string,
                                      regexp: Regexp, uuid: nat -> string, made: nat)
    ensures var p := PlanJobs(handlers, context, regexp, uuid, made);
      forall k :: 0 <= k < |p.jobs| ==> p.jobs[k].id == uuid(made + k) && p.jobs[k].routingKey == uuid(made + k)
    decreases |handlers|
  {
    if |handlers| > 0 {
      match regexp(handlers[0].when, context)
      case CompileError =>
      case NoMatch =>
        PlanJobIds(handlers[1..], context, regexp, uuid, made);
        assert var q := PlanJobs(handlers[1..], context, regexp, uuid, made);
          forall k :: 0 <= k < |q.jobs| ==> q.jobs[k].id == uuid(made + k) && q.jobs[k].routingKey == uuid(made + k);
      case Matched(submatches) =>
        PlanJobIds(handlers[1..], context, regexp, uuid, made + 1);
        assert var q := PlanJobs(handlers[1..], context, regexp, uuid, made + 1);
          forall k :: 0 <= k < |q.jobs| ==>
            q.jobs[k].id == uuid(made + 1 + k) && q.jobs[k].routingKey == uuid(made + 1 + k);
        var h := handlers[0];
        var job := HandlerJob(h, submatches, uuid(made));
        var p := PlanJobs(handlers, context, regexp, uuid, made);
        var q := PlanJobs(handlers[1..], context, regexp, uuid, made + 1);
        assert p.jobs == [job] + q.jobs;
        forall k | 0 <= k < |p.jobs|
          ensures p.jobs[k].id == uuid(made + k) && p.jobs[k].routingKey == uuid(made + k)
        {
          if k > 0 {
            assert p.jobs[k] == q.jobs[k - 1];
            assert made + k == made + 1 + (k - 1);
          }
        }
    }
  }

  /** One handler's step of the plan, seen from position `i`. */
  lemma PlanStep(handlers: seq<Config.Event>, i: nat, context: string, regexp: Regexp,
                 uuid: nat -> string, made: nat)
    requires i < |handlers|
    ensures var h := handlers[i];
      var p := PlanJobs(handlers[i..], context, regexp, uuid, made);
      match regexp(h.when, context)
      case CompileError => p == Plan([], Some(h.when))
      case NoMatch => p == PlanJobs(handlers[i + 1..], context, regexp, uuid, made)
      case Matched(submatches) =>
        var tail := PlanJobs(handlers[i + 1..], context, regexp, uuid, made + 1);
        p == Plan([HandlerJob(h, submatches, uuid(made))] + tail.jobs,
                  tail.failure)
  {
    assert handlers[i..][0] == handlers[i];
    assert handlers[i..][1..] == handlers[i + 1..];
  }

  /** The plan of the handlers still to visit, put after the jobs already
      made, once one more job is made. */
  lemma PlanShift(p: Plan, done: seq<Job>, job: Job, tail: Plan)
    requires p == Plan(done + ([job] + tail.jobs), tail.failure)
    ensures p == Plan((done + [job]) + tail.jobs, tail.failure)
  {
    assert done + ([job] + tail.jobs) == (done + [job]) + tail.jobs;
  }

  /** The jobs already made are a proper prefix of the plan when the
      handlers still to visit make at least one more. */
  lemma PlanPrefix(p: Plan, done: seq<Job>, rest: Plan)
    requires p.jobs == done + rest.jobs && |rest.jobs| > 0
    ensures |done| < |p.jobs| && p.jobs[..|done|] == done
  {
  }

  /** The reference: the handlers whose pattern matches, each with its
      submatches, in handler order. */
  function Matching(handlers: seq<Config.Event>, context: string, regexp: Regexp)
    : seq<(Config.Event, seq<string>)>
    decreases |handlers|
  {
    if |handlers| == 0 then []
    else match regexp(handlers[0].when, context)
      case Matched(submatches) => [(handlers[0], submatches)] + Matching(handlers[1..], context, regexp)
      case _ => Matching(handlers[1..], context, regexp)
  }

  /** Putting one matched handler's job in front of the jobs of the handlers
      after it shifts every later job's id by one. */
  lemma MatchedJobsShift(jobs: seq<Job>, tail: seq<Job>, m: seq<(Config.Event, seq<string>)>,
                         mtail: seq<(Config.Event, seq<string>)>, uuid: nat -> string, made: nat)
    requires |m| > 0 && jobs == [HandlerJob(m[0].0, m[0].1, uuid(made))] + tail && m == [m[0]] + mtail
    requires |tail| == |mtail|
    requires forall k :: 0 <= k < |mtail| ==> tail[k] == HandlerJob(mtail[k].0, mtail[k].1, uuid(made + 1 + k))
    ensures |jobs| == |m|
    ensures forall k :: 0 <= k < |m| ==> jobs[k] == HandlerJob(m[k].0, m[k].1, uuid(made + k))
  {
    forall k | 1 <= k < |m|
      ensures jobs[k] == HandlerJob(m[k].0, m[k].1, uuid(made + k))
    {
      assert jobs[k] == tail[k - 1] && m[k] == mtail[k - 1];
      assert made + k == made + 1 + (k - 1);
    }
  }

  /** When every pattern compiles, the k-th job runs the k-th matching
      handler's command with its timeout and its submatches, and nothing else
      is planned. */
  lemma {:induction false} PlanIsMatchingHandlers(handlers: seq<Config.Event>, context: string,
                                                  regexp: Regexp, uuid: nat -> string, made: nat)
    requires forall i :: 0 <= i < |handlers| ==> !regexp(handlers[i].when, context).CompileError?
    ensures var p := PlanJobs(handlers, context, regexp, uuid, made);
      var m := Matching(handlers, context, regexp);
      && |p.jobs| == |m|
      && forall k :: 0 <= k < |m| ==>
           p.jobs[k] == HandlerJob(m[k].0, m[k].1, uuid(made + k))
    decreases |handlers|
  {
    if |handlers| > 0 {
      var rest := handlers[1..];
      assert forall i :: 0 <= i < |rest| ==> rest[i] == handlers[i + 1];
      match regexp(handlers[0].when, context)
      case NoMatch =>
        PlanIsMatchingHandlers(rest, context, regexp, uuid, made);
      case Matched(submatches) =>
        PlanIsMatchingHandlers(rest, context, regexp, uuid, made + 1);
        var p := PlanJobs(handlers, context, regexp, uuid, made);
        var q := PlanJobs(rest, context, regexp, uuid, made + 1);
        assert p.jobs == [HandlerJob(handlers[0], submatches, uuid(made))] + q.jobs;
        assert Matching(handlers, context, regexp) == [(handlers[0], submatches)] + Matching(rest, context, regexp);
        MatchedJobsShift(p.jobs, q.jobs, Matching(handlers, context, regexp), Matching(rest, context, regexp), uuid, made);
    }
  }

  /** A pattern that fails to compile ends the event: the jobs planned are
      those of the handlers before it, and its pattern is the error. */
  lemma {:induction false} PlanStopsAtBadPattern(handlers: seq<Config.Event>, context: string,
                                                 regexp: Regexp, uuid: nat -> string, made: nat, i: nat)
    requires i < |handlers| && regexp(handlers[i].when, context).CompileError?
    requires forall j :: 0 <= j < i ==> !regexp(handlers[j].when, context).CompileError?
    ensures var p := PlanJobs(handlers, context, regexp, uuid, made);
      && p.failure == Some(handlers[i].when)
      && p.jobs == PlanJobs(handlers[..i], context, regexp, uuid, made).jobs
    decreases i
  {
    var rest := handlers[1..];
    if i > 0 {
      assert forall j :: 0 <= j < |rest| ==> rest[j] == handlers[j + 1];
      assert handlers[..i][1..] == rest[..i - 1];
      match regexp(handlers[0].when, context)
      case NoMatch =>
        PlanStopsAtBadPattern(rest, context, regexp, uuid, made, i - 1);
      case Matched(submatches) =>
        PlanStopsAtBadPattern(rest, context, regexp, uuid, made + 1, i - 1);
    }
  }

  // ----- the processor -----

  datatype ProcessError =
    | CompileFailed(pattern: string)               // "cant compile regexp <pattern>"
    | SubmitFailed(cause: Workerpool.SubmitError)  // "cant submit a job for execution"

  /** What one handler's turn of `process` came to. */
  datatype Visit =
    | BadPattern                                // its pattern did not compile
    | NotMatched                                // its pattern did not match
    | Queued(job: Job)                          // its job was submitted
    | Rejected(cause: Workerpool.SubmitError)   // its job was refused

  class Service {
    const pool: Workerpool.Service
    const cfg: Config.Config

    /** NewService: it never fails. */
    constructor (pool: Workerpool.Service, cfg: Config.Config)
      ensures this.pool == pool && this.cfg == cfg
    {
      this.pool := pool;
      this.cfg := cfg;
    }

    /** The handlers the current snapshot registers for an event type; none
        when the type is not configured. */
    function Handlers(eventType: string): (r: seq<Config.Event>)
      reads cfg, cfg.cfg
      requires cfg.cfg != null
      ensures eventType !in cfg.cfg.onEvents ==> r == []
      ensures cfg.cfg.Validated() ==> forall h :: h in r ==> h in cfg.cfg.events && h.on == eventType
    {
      if eventType in cfg.cfg.onEvents then
        Config.BucketMembers(cfg.cfg.events, eventType);
        cfg.cfg.onEvents[eventType]
      else []
    }

    /** The part of process for a handler whose pattern matched: build the
        job from the submatches and submit it. */
    method SubmitMatch(ctxDone: bool, matcher: Config.Event, submatches: seq<string>, id: string)
      returns (job: Job, err: Option<Workerpool.SubmitError>)
      requires pool.Valid()
      requires ctxDone || pool.closed || |pool.queues[Workerpool.WorkerIndex(id, pool.workers)]| < pool.queueSize
      modifies pool
      ensures pool.Valid()
      ensures job == HandlerJob(matcher, submatches, id)
      ensures err.Some? ==> unchanged(pool)
      ensures err.None? ==>
        && pool.submitted == old(pool.submitted) + [job]
        && pool.executed == old(pool.executed) && pool.results == old(pool.results)
        && pool.closed == old(pool.closed)
        && var w := Workerpool.WorkerIndex(id, pool.workers);
           pool.queues == old(pool.queues)[w := old(pool.queues)[w] + [job]]
      ensures !ctxDone && !old(pool.closed) ==> err.None?
      ensures err == Some(Workerpool.PoolClosed) <==> old(pool.closed)
    {
      var env := BuildEnv(submatches);
      job := NewJob(env, matcher.command, matcher.timeout, None, id, map[]);
      HandlerJobIsNewJob(matcher, submatches, id);
      err := pool.Submit(ctxDone, job);
    }

    /** Every queue can still take the jobs of `jobs` that route to it, so
        no submission of them has to wait, unless a send that has to wait
        gives up (the context has ended) or the pool is closed. */
    ghost predicate Room(ctxDone: bool, jobs: seq<Job>)
      reads pool
    {
      || ctxDone || pool.closed
      || forall w {:trigger Workerpool.RoutedCount(jobs, w, |pool.queues|)} :: 0 <= w < |pool.queues| ==>
           |pool.queues[w]| + Workerpool.RoutedCount(jobs, w, |pool.queues|) <= pool.queueSize
    }

    /** One handler's turn of process, for the i-th handler when `made` jobs
        came before it: compile and match its pattern, and submit the job when
        it matches; the outcome is the first step of the plan of
        `handlers[i..]`. The queues must have room for the jobs of that plan. */
    method VisitHandler(ctxDone: bool, handlers: seq<Config.Event>, i: nat, context: string,
                        regexp: Regexp, uuid: nat -> string, made: nat)
      returns (v: Visit)
      requires i < |handlers|
      requires pool.Valid()
      requires Room(ctxDone, PlanJobs(handlers[i..], context, regexp, uuid, made).jobs)
      modifies pool
      ensures pool.Valid()
      ensures v.BadPattern? <==> regexp(handlers[i].when, context).CompileError?
      ensures v.NotMatched? <==> regexp(handlers[i].when, context).NoMatch?
      ensures !v.Queued? ==> unchanged(pool)
      ensures pool.submitted == old(pool.submitted) + (if v.Queued? then [v.job] else [])
      ensures pool.executed == old(pool.executed) && pool.results == old(pool.results)
      ensures pool.closed == old(pool.closed)
      ensures v.Queued? ==>
        var t := Workerpool.WorkerIndex(v.job.routingKey, pool.workers);
        pool.queues == old(pool.queues)[t := old(pool.queues)[t] + [v.job]]
      ensures v.NotMatched? ==> Room(ctxDone, PlanJobs(handlers[i + 1..], context, regexp, uuid, made).jobs)
      ensures v.Queued? ==> Room(ctxDone, PlanJobs(handlers[i + 1..], context, regexp, uuid, made + 1).jobs)
      ensures !ctxDone && !old(pool.closed) ==> !v.Rejected?
      ensures old(pool.closed) ==> !v.Queued?
      ensures v.Rejected? ==> (v.cause == Workerpool.PoolClosed <==> old(pool.closed))
      ensures var p := PlanJobs(handlers[i..], context, regexp, uuid, made);
        && (v.BadPattern? ==> p == Plan([], Some(handlers[i].when)))
        && (v.NotMatched? ==> p == PlanJobs(handlers[i + 1..], context, regexp, uuid, made))
        && (v.Rejected? ==> |p.jobs| > 0)
        && (v.Queued? ==>
              var tail := PlanJobs(handlers[i + 1..], context, regexp, uuid, made + 1);
              p == Plan([v.job] + tail.jobs, tail.failure))
    {
      PlanStep(handlers, i, context, regexp, uuid, made);
      var matcher := handlers[i];
      var outcome := regexp(matcher.when, context);
      if outcome.CompileError? {
        return BadPattern;
      }
      if outcome.NoMatch? {
        return NotMatched;
      }
      if !ctxDone && !pool.closed {
        Workerpool.RoomAfterEnqueue(pool.queues, pool.queueSize, HandlerJob(matcher, outcome.submatches, uuid(made)),
                         PlanJobs(handlers[i + 1..], context, regexp, uuid, made + 1).jobs);
      }
      var job, err := SubmitMatch(ctxDone, matcher, outcome.submatches, uuid(made));
      if err.Some? {
        return Rejected(err.value);
      }
      return Queued(job);
    }

    /** What the loop of process keeps after visiting the first `i`
        handlers: the pool is valid, it has taken the jobs `done` on top of
        the submissions `start` and each queue of `startQ` has gained those
        of them that route to it, the queues still have room for the jobs
        the other handlers make, and the plan of all the handlers is `done`
        followed by the plan of the rest. */
    ghost predicate Progress(ctxDone: bool, handlers: seq<Config.Event>, context: string, regexp: Regexp,
                             uuid: nat -> string, i: nat, done: seq<Job>, start: seq<Job>,
                             startQ: seq<seq<Job>>)
      reads pool
    {
      && i <= |handlers|
      && pool.Valid()
      && pool.submitted == start + done
      && Workerpool.Gained(startQ, pool.queues, done)
      && var rest := PlanJobs(handlers[i..], context, regexp, uuid, |done|);
         && Room(ctxDone, rest.jobs)
         && PlanJobs(handlers, context, regexp, uuid, 0) == Plan(done + rest.jobs, rest.failure)
    }

    /** One turn of the loop of process: visit the i-th handler, keeping
        Progress when the loop goes on, and leaving the pool as the plan
        says when it stops. */
    method Advance(ctxDone: bool, handlers: seq<Config.Event>, i: nat, context: string, regexp: Regexp,
                   uuid: nat -> string, made: nat, ghost done: seq<Job>, ghost start: seq<Job>,
                   ghost startQ: seq<seq<Job>>)
      returns (v: Visit)
      requires i < |handlers| && made == |done|
      requires Progress(ctxDone, handlers, context, regexp, uuid, i, done, start, startQ)
      modifies pool
      ensures pool.executed == old(pool.executed) && pool.results == old(pool.results)
      ensures pool.closed == old(pool.closed)
      ensures v.NotMatched? ==> Progress(ctxDone, handlers, context, regexp, uuid, i + 1, done, start, startQ)
      ensures v.Queued? ==> Progress(ctxDone, handlers, context, regexp, uuid, i + 1, done + [v.job], start, startQ)
      ensures v.BadPattern? || v.Rejected? ==>
        pool.Valid() && pool.submitted == start + done && Workerpool.Gained(startQ, pool.queues, done)
      ensures v.BadPattern? ==>
        PlanJobs(handlers, context, regexp, uuid, 0) == Plan(done, Some(handlers[i].when))
      ensures v.Rejected? ==>
        var p := PlanJobs(handlers, context, regexp, uuid, 0);
        |done| < |p.jobs| && p.jobs[..|done|] == done
      ensures !ctxDone && !old(pool.closed) ==> !v.Rejected?
      ensures old(pool.closed) ==> !v.Queued?
      ensures v.Rejected? ==> (v.cause == Workerpool.PoolClosed <==> old(pool.closed))
    {
      ghost var p := PlanJobs(handlers, context, regexp, uuid, 0);
      v := VisitHandler(ctxDone, handlers, i, context, regexp, uuid, made);
      match v {
        case BadPattern =>
          assert done + [] == done;
        case Rejected(_) =>
          PlanPrefix(p, done, PlanJobs(handlers[i..], context, regexp, uuid, made));
        case NotMatched =>
        case Queued(job) =>
          PlanShift(p, done, job, PlanJobs(handlers[i + 1..], context, regexp, uuid, made + 1));
          Workerpool.GainedOneMore(startQ, old(pool.queues), done, job);
          assert Workerpool.Gained(startQ, pool.queues, done + [job]);
      }
    }

    /** The loop of process over the handlers of the event's type, against
        the plan of those handlers: it stops at the first pattern that does
        not compile and at the first submission that gives up. */
    method RunHandlers(ctxDone: bool, handlers: seq<Config.Event>, context: string,
                       regexp: Regexp, uuid: nat -> string)
      returns (err: Option<ProcessError>)
      requires pool.Valid() && Room(ctxDone, PlanJobs(handlers, context, regexp, uuid, 0).jobs)
      modifies pool
      ensures pool.Valid()
      ensures err.None? ==>
        var p := PlanJobs(handlers, context, regexp, uuid, 0);
        && p.failure.None? && pool.submitted == old(pool.submitted) + p.jobs
        && Workerpool.Gained(old(pool.queues), pool.queues, p.jobs)
      ensures err.Some? && err.value.CompileFailed? ==>
        var p := PlanJobs(handlers, context, regexp, uuid, 0);
        && p.failure == Some(err.value.pattern) && pool.submitted == old(pool.submitted) + p.jobs
        && Workerpool.Gained(old(pool.queues), pool.queues, p.jobs)
      ensures err.Some? && err.value.SubmitFailed? ==>
        var p := PlanJobs(handlers, context, regexp, uuid, 0);
        exists n :: 0 <= n < |p.jobs| && pool.submitted == old(pool.submitted) + p.jobs[..n]
          && Workerpool.Gained(old(pool.queues), pool.queues, p.jobs[..n])
      ensures !ctxDone && !old(pool.closed) ==> !(err.Some? && err.value.SubmitFailed?)
      ensures old(pool.closed) ==> pool.submitted == old(pool.submitted) && pool.queues == old(pool.queues)
      ensures err.Some? && err.value.SubmitFailed? ==> (err.value.cause == Workerpool.PoolClosed <==> old(pool.closed))
      ensures pool.executed == old(pool.executed) && pool.results == old(pool.results)
      ensures pool.closed == old(pool.closed)
    {
      err := None;
      ghost var start := pool.submitted;
      ghost var startQ := pool.queues;
      ghost var done: seq<Job> := [];
      var made := 0;
      var i := 0;
      assert handlers[0..] == handlers;
      assert start + [] == start;
      Workerpool.GainedNothing(startQ);
      while i < |handlers|
        invariant made == |done| && err.None?
        invariant old(pool.closed) ==> done == []
        invariant Progress(ctxDone, handlers, context, regexp, uuid, i, done, start, startQ)
        invariant pool.executed == old(pool.executed) && pool.results == old(pool.results)
        invariant pool.closed == old(pool.closed)
      {
        var v := Advance(ctxDone, handlers, i, context, regexp, uuid, made, done, start, startQ);
        match v {
          case BadPattern =>
            err := Some(CompileFailed(handlers[i].when));
            break;
          case Rejected(cause) =>
            err := Some(SubmitFailed(cause));
            break;
          case NotMatched =>
          case Queued(job) =>
            done := done + [job];
            made := made + 1;
        }
        i := i + 1;
      }
      if err.None? {
        assert handlers[i..] == [];
        assert done + [] == done;
      }
      if old(pool.closed) {
        assert start + [] == start;
        Workerpool.GainedNothingUnchanged(startQ, pool.queues);
      }
    }

    /** process. `ctxDone` tells whether the processor's context has ended,
        `regexp` what the patterns do, `uuid(k)` the UUID drawn for the k-th
        job. Unless a submission can give up, every queue must have room for
        the planned jobs that route to it, since a send that would wait
        forever is not a step. */
    method Process(ctxDone: bool, event: Hypr.Event, regexp: Regexp, uuid: nat -> string)
      returns (err: Option<ProcessError>)
      requires cfg.cfg != null && pool.Valid()
      requires ctxDone || pool.closed ||
        forall w :: 0 <= w < pool.workers ==>
          |pool.queues[w]| +
          Workerpool.RoutedCount(PlanJobs(Handlers(event.eventType), event.eventContext, regexp, uuid, 0).jobs, w, pool.workers)
          <= pool.queueSize
      modifies pool
      ensures pool.Valid()
      ensures err.None? ==>
        var p := PlanJobs(Handlers(event.eventType), event.eventContext, regexp, uuid, 0);
        && p.failure.None? && pool.submitted == old(pool.submitted) + p.jobs
        && forall w :: 0 <= w < pool.workers ==>
             pool.queues[w] == old(pool.queues[w]) + Workerpool.RoutedJobs(p.jobs, w, pool.workers)
      ensures err.Some? && err.value.CompileFailed? ==>
        var p := PlanJobs(Handlers(event.eventType), event.eventContext, regexp, uuid, 0);
        && p.failure == Some(err.value.pattern) && pool.submitted == old(pool.submitted) + p.jobs
        && forall w :: 0 <= w < pool.workers ==>
             pool.queues[w] == old(pool.queues[w]) + Workerpool.RoutedJobs(p.jobs, w, pool.workers)
      ensures err.Some? && err.value.SubmitFailed? ==>
        var p := PlanJobs(Handlers(event.eventType), event.eventContext, regexp, uuid, 0);
        exists n :: 0 <= n < |p.jobs| && pool.submitted == old(pool.submitted) + p.jobs[..n]
          && forall w :: 0 <= w < pool.workers ==>
               pool.queues[w] == old(pool.queues[w]) + Workerpool.RoutedJobs(p.jobs[..n], w, pool.workers)
      ensures event.eventType !in cfg.cfg.onEvents ==> pool.queues == old(pool.queues)
      ensures !ctxDone && !old(pool.closed) ==> !(err.Some? && err.value.SubmitFailed?)
      ensures old(pool.closed) ==> pool.submitted == old(pool.submitted) && pool.queues == old(pool.queues)
      ensures err.Some? && err.value.SubmitFailed? ==> (err.value.cause == Workerpool.PoolClosed <==> old(pool.closed))
      ensures pool.executed == old(pool.executed) && pool.results == old(pool.results)
      ensures pool.closed == old(pool.closed)
    {
      if event.eventType !in cfg.cfg.onEvents {
        return None;
      }
      err := RunHandlers(ctxDone, cfg.cfg.onEvents[event.eventType], event.eventContext, regexp, uuid);
    }
  }
}

=== FILE: gostrings.dfy ===
/** The few pieces of Go's `strings`, `strconv` and string-to-bytes conversion
    that the core relies on. A Go string is modelled as a sequence of Unicode
    scalar values; `[]byte(s)` is its UTF-8 encoding. */
module GoStrings {

  newtype byte = x: int | 0 <= x < 256

  /** strings.HasPrefix */
  predicate HasPrefix(s: string, prefix: string) {
    |prefix| <= |s| && s[..|prefix|] == prefix
  }

  /** strings.CutPrefix: the rest of `s` after `prefix`, and whether it was there. */
  function CutPrefix(s: string, prefix: string): (r: (string, bool))
    ensures r.1 == HasPrefix(s, prefix)
    ensures r.1 ==> s == prefix + r.0
    ensures !r.1 ==> r.0 == s
  {
    if HasPrefix(s, prefix) then
      assert s == s[..|prefix|] + s[|prefix|..];
      (s[|prefix|..], true)
    else (s, false)
  }

  /** The decimal digit character for `d`. */
  function DigitChar(d: nat): (c: char)
    requires d < 10
    ensures '0' <= c <= '9' && c as int - '0' as int == d
  {
    ('0' as int + d) as char
  }

  /** strconv.Itoa on a non-negative int: its shortest decimal form. */
  function Itoa(n: nat): (s: string)
    ensures |s| >= 1
    ensures n < 10 <==> |s| == 1
    ensures forall i :: 0 <= i < |s| ==> '0' <= s[i] <= '9'
  {
    if n < 10 then [DigitChar(n)] else Itoa(n / 10) + [DigitChar(n % 10)]
  }

  /** The last character of Itoa(n) is n's last digit; the rest is Itoa of
      the remaining digits. */
  lemma ItoaLast(n: nat)
    ensures var s := Itoa(n);
      && s[|s| - 1] == DigitChar(n % 10)
      && (n >= 10 ==> s[..|s| - 1] == Itoa(n / 10))
  {
    if n >= 10 {
      var p := Itoa(n / 10);
      assert Itoa(n) == p + [DigitChar(n % 10)];
      assert (p + [DigitChar(n % 10)])[..|p|] == p;
    }
  }

  /** Different numbers have different decimal forms, so names built from them
      never collide. */
  lemma {:induction false} ItoaInjective(m: nat, n: nat)
    requires Itoa(m) == Itoa(n)
    ensures m == n
  {
    ItoaLast(m);
    ItoaLast(n);
    var sm := Itoa(m);
    assert DigitChar(m % 10) == DigitChar(n % 10);
    if m >= 10 && n >= 10 {
      ItoaInjective(m / 10, n / 10);
      assert m == 10 * (m / 10) + m % 10;
      assert n == 10 * (n / 10) + n % 10;
    } else {
      assert m < 10 && n < 10;
    }
  }

  /** The UTF-8 encoding of one scalar value (1 to 4 bytes). */
  function EncodeRune(c: char): (bs: seq<byte>)
    ensures 1 <= |bs| <= 4
    ensures |bs| == 1 <==> (c as int) < 0x80
    ensures |bs| == 1 ==> bs[0] as int == c as int
  {
    var n := c as int;
    if n < 0x80 then [n as byte]
    else if n < 0x800 then [(0xC0 + n / 0x40) as byte, (0x80 + n % 0x40) as byte]
    else if n < 0x1_0000 then
      [(0xE0 + n / 0x1000) as byte, (0x80 + (n / 0x40) % 0x40) as byte, (0x80 + n % 0x40) as byte]
    else
      [(0xF0 + n / 0x4_0000) as byte, (0x80 + (n / 0x1000) % 0x40) as byte,
       (0x80 + (n / 0x40) % 0x40) as byte, (0x80 + n % 0x40) as byte]
  }

  /** []byte(s) */
  function Utf8(s: string): (bs: seq<byte>)
    ensures |bs| >= |s|
  {
    if |s| == 0 then [] else EncodeRune(s[0]) + Utf8(s[1..])
  }
}

=== FILE: hypr.dfy ===
/** Splitting a raw event-socket line `<key>>><payload>` against the
    configured event keys. */
module Hypr {
  import opened Wrappers
  import opened GoStrings
  import Config

  /** An event that some handler is registered for. */
  datatype Event = Event(eventType: string, eventContext: string)

  /** The separator between the event key and its payload. */
  const Delimiter: string := ">>"

  /** Whether `line` is an event of kind `key`. */
  predicate IsEventOf(line: string, key: string) {
    HasPrefix(line, key + Delimiter)
  }

  /** The loop of ParseEvent: the first key, in order, that `line` starts
      with (followed by the delimiter); None stands for `(false, nil)`. */
  function FirstMatch(keys: seq<string>, line: string): (r: Option<Event>)
    ensures r.Some? <==> exists k :: k in keys && IsEventOf(line, k)
    ensures r.Some? ==> r.value.eventType in keys
    ensures r.Some? ==> IsEventOf(line, r.value.eventType)
    ensures r.Some? ==> line == r.value.eventType + Delimiter + r.value.eventContext
  {
    if |keys| == 0 then None
    else
      var (after, done) := CutPrefix(line, keys[0] + Delimiter);
      if done then assert keys[0] in keys; Some(Event(keys[0], after))
      else
        var r := FirstMatch(keys[1..], line);
        assert forall k :: k in keys <==> k == keys[0] || k in keys[1..];
        r
  }

  /** ParseEvent over a configuration snapshot. */
  function ParseEvent(cfg: Config.RawConfig, line: string): (r: Option<Event>)
    reads cfg
    ensures r.Some? <==> exists k :: k in cfg.eventKeys && IsEventOf(line, k)
    ensures r.Some? ==> r.value.eventType in cfg.eventKeys
  {
    FirstMatch(cfg.eventKeys, line)
  }

  /** When several keys match, the earliest in `keys` wins. */
  lemma {:induction false} FirstMatchWins(keys: seq<string>, line: string, i: nat)
    requires i < |keys| && IsEventOf(line, keys[i])
    requires forall j :: 0 <= j < i ==> !IsEventOf(line, keys[j])
    ensures FirstMatch(keys, line) == Some(Event(keys[i], line[|keys[i]| + |Delimiter|..]))
  {
    if i > 0 {
      FirstMatchWins(keys[1..], line, i - 1);
    }
  }

  lemma PrefixCharAt(line: string, p: string, i: nat)
    requires HasPrefix(line, p) && i < |p|
    ensures line[i] == p[i]
  {
    assert line[..|p|][i] == p[i];
  }

  /** Two keys free of '>' cannot both match one line. */
  lemma MatchingKeyUnique(line: string, k1: string, k2: string)
    requires '>' !in k1 && '>' !in k2
    requires IsEventOf(line, k1) && IsEventOf(line, k2)
    ensures k1 == k2
  {
    if |k1| < |k2| {
      PrefixCharAt(line, k1 + Delimiter, |k1|);
      PrefixCharAt(line, k2 + Delimiter, |k1|);
      assert false;
    } else if |k2| < |k1| {
      PrefixCharAt(line, k1 + Delimiter, |k2|);
      PrefixCharAt(line, k2 + Delimiter, |k2|);
      assert false;
    } else {
      assert k1 == (k1 + Delimiter)[..|k1|] == line[..|k1|] == (k2 + Delimiter)[..|k2|] == k2;
    }
  }

  /** EventKeys comes from iterating a Go map, so its order differs from run
      to run; when no key contains '>', the parse does not depend on it. */
  lemma KeyOrderIrrelevant(keys1: seq<string>, keys2: seq<string>, line: string)
    requires forall k :: k in keys1 <==> k in keys2
    requires forall k :: k in keys1 ==> '>' !in k
    ensures FirstMatch(keys1, line) == FirstMatch(keys2, line)
  {
    var r1, r2 := FirstMatch(keys1, line), FirstMatch(keys2, line);
    if r1.Some? {
      MatchingKeyUnique(line, r1.value.eventType, r2.value.eventType);
      assert r1.value.eventContext == line[|r1.value.eventType| + |Delimiter|..];
      assert r2.value.eventContext == line[|r2.value.eventType| + |Delimiter|..];
    }
  }

  /** A parsed event always has handlers in the snapshot it was parsed with. */
  lemma ParsedEventHasHandlers(cfg: Config.RawConfig, line: string)
    requires cfg.Validated()
    requires ParseEvent(cfg, line).Some?
    ensures ParseEvent(cfg, line).value.eventType in cfg.onEvents
    ensures |cfg.onEvents[ParseEvent(cfg, line).value.eventType]| > 0
  {
    var k := ParseEvent(cfg, line).value.eventType;
    assert k in Config.OnKeys(cfg.events);
    var e :| e in cfg.events && e.on == k;
    Config.HandlersOnMembers(cfg.events, k, e);
  }
}

=== FILE: jobs.dfy ===
/** Jobs and their results (workerpool/types.go): a job is a shell command
    with extra environment, an optional timeout and a routing key. */
module Jobs {
  import opened Wrappers
  import Config
  import ShellExpand

  /** The failures a job's result can carry. */
  datatype JobError =
    | DeadlineExceeded          // the job's timeout expired while the command ran
    | Canceled                  // the pool's context was cancelled while it ran
    | CommandFailed(id: string) // "job <id> errored": non-zero exit or I/O failure

  /** A unit of work; `id` is the text form of the job's UUID. */
  datatype Job = Job(
    id: string,
    routingKey: string,
    extraEnv: map<string, string>,
    exec: string,
    timeout: Option<Config.Duration>)

  /** What a worker publishes after running a job. */
  datatype JobResult = JobResult(jobId: string, err: Option<JobError>, exec: string)

  /** os.Getenv over the process environment: "" for an unset variable. */
  function Getenv(procEnv: map<string, string>, key: string): string {
    if key in procEnv then procEnv[key] else ""
  }

  /** The mapping NewJob hands to os.Expand: the job's own environment first,
      the process environment second. */
  function Lookup(env: map<string, string>, procEnv: map<string, string>, key: string): string {
    if key in env then env[key] else Getenv(procEnv, key)
  }

  /** NewJob. `id` is the UUID drawn for the job and `procEnv` the process
      environment at that moment. */
  function NewJob(
    env: map<string, string>, exec: string, timeout: Option<Config.Duration>,
    maybeRoutingKey: Option<string>, id: string, procEnv: map<string, string>): (j: Job)
    ensures j.id == id && j.exec == exec && j.timeout == timeout && j.extraEnv == env
    ensures maybeRoutingKey.None? ==> j.routingKey == id
  {
    var routingKey :=
      match maybeRoutingKey
      case None => id
      case Some(template) => ShellExpand.Expand(template, k => Lookup(env, procEnv, k));
    Job(id, routingKey, env, exec, timeout)
  }

  /** A template with no '$' is the routing key itself. */
  lemma VerbatimRoutingKey(env: map<string, string>, exec: string, timeout: Option<Config.Duration>,
                           template: string, id: string, procEnv: map<string, string>)
    requires '$' !in template
    ensures NewJob(env, exec, timeout, Some(template), id, procEnv).routingKey == template
  {
    ShellExpand.ExpandVerbatim(template, k => Lookup(env, procEnv, k));
  }

  /** A variable the job's environment defines never reaches the process
      environment: when it defines them all, the process environment cannot
      change the routing key. */
  lemma EnvShadowsProcessEnv(env: map<string, string>, exec: string, timeout: Option<Config.Duration>,
                             template: string, id: string, p1: map<string, string>, p2: map<string, string>)
    requires forall k :: k in ShellExpand.Vars(template) ==> k in env
    ensures NewJob(env, exec, timeout, Some(template), id, p1) == NewJob(env, exec, timeout, Some(template), id, p2)
  {
    ShellExpand.ExpandDependsOnVars(template, k => Lookup(env, p1, k), k => Lookup(env, p2, k));
  }

  /** The routing key `${name}` resolves to the job's variable when it has
      one and to the process variable otherwise. */
  lemma RoutingKeyLookup(env: map<string, string>, exec: string, timeout: Option<Config.Duration>,
                         name: string, id: string, procEnv: map<string, string>)
    requires |name| > 0 && '}' !in name
    ensures var key := NewJob(env, exec, timeout, Some("$" + ("{" + name + "}")), id, procEnv).routingKey;
      && (name in env ==> key == env[name])
      && (name !in env ==> key == Getenv(procEnv, name))
  {
    ShellExpand.ExpandBracedName(name, k => Lookup(env, procEnv, k));
  }
}

=== FILE: shell_expand.dfy ===
/** Go's os.Expand: replace `$name` and `${name}` in a template by the value
    a mapping gives for `name`. Go scans bytes; every character the scan
    tests for is ASCII, so scanning characters gives the same result. */
module ShellExpand {

  /** The one-character names `$*`, `$#`, `$$`, `$@`, `$!`, `$?`, `$-` and `$0`..`$9`. */
  predicate IsShellSpecialVar(c: char) {
    c in "*#$@!?-0123456789"
  }

  predicate IsAlphaNum(c: char) {
    c == '_' || '0' <= c <= '9' || 'a' <= c <= 'z' || 'A' <= c <= 'Z'
  }

  /** The index of the first '}' of `s` at or after `i`. */
  function CloseBrace(s: string, i: nat): (r: int)
    requires i <= |s|
    ensures r == -1 || (i <= r < |s| && s[r] == '}')
    ensures forall j :: i <= j < |s| && (r == -1 || j < r) ==> s[j] != '}'
    decreases |s| - i
  {
    if i == |s| then -1 else if s[i] == '}' then i else CloseBrace(s, i + 1)
  }

  /** The length of the run of alphanumerics that starts `s` at `i`. */
  function AlphaNumRun(s: string, i: nat): (r: nat)
    requires i <= |s|
    ensures i <= r <= |s|
    ensures forall j :: i <= j < r ==> IsAlphaNum(s[j])
    ensures r < |s| ==> !IsAlphaNum(s[r])
    decreases |s| - i
  {
    if i < |s| && IsAlphaNum(s[i]) then AlphaNumRun(s, i + 1) else i
  }

  /** getShellName: the variable name that follows a '$' (empty when there
      is none) and how many characters after the '$' it takes. */
  function ShellName(s: string): (r: (string, nat))
    requires |s| > 0
    ensures 0 < r.1 <= |s| || (r.0 == "" && r.1 == 0)
    ensures r.0 != "" ==> r.1 > 0
  {
    if s[0] == '{' then
      if |s| > 2 && IsShellSpecialVar(s[1]) && s[2] == '}' then (s[1..2], 3)
      else
        var close := CloseBrace(s, 1);
        if close == -1 then ("", 1)        // bad syntax: eat "${"
        else if close == 1 then ("", 2)    // bad syntax: eat "${}"
        else (s[1..close], close + 1)
    else if IsShellSpecialVar(s[0]) then (s[0..1], 1)
    else
      var n := AlphaNumRun(s, 0);
      (s[..n], n)
  }

  /** What os.Expand writes for one '$' and the name after it. */
  function Substitute(name: string, width: nat, mapping: string -> string): string {
    if name == "" && width > 0 then ""      // invalid syntax is dropped
    else if name == "" then "$"             // a lone '$' is kept
    else mapping(name)
  }

  /** os.Expand. A '$' that ends the template is copied unchanged. */
  function Expand(s: string, mapping: string -> string): string
    decreases |s|
  {
    if |s| == 0 then ""
    else if s[0] == '$' && |s| > 1 then
      var (name, width) := ShellName(s[1..]);
      Substitute(name, width, mapping) + Expand(s[1 + width..], mapping)
    else [s[0]] + Expand(s[1..], mapping)
  }

  /** The names Expand asks the mapping for. */
  function Vars(s: string): set<string>
    decreases |s|
  {
    if |s| == 0 then {}
    else if s[0] == '$' && |s| > 1 then
      var (name, width) := ShellName(s[1..]);
      (if name == "" then {} else {name}) + Vars(s[1 + width..])
    else Vars(s[1..])
  }

  /** A template without '$' expands to itself. */
  lemma {:induction false} ExpandVerbatim(s: string, mapping: string -> string)
    requires '$' !in s
    ensures Expand(s, mapping) == s
    decreases |s|
  {
    if |s| > 0 {
      assert '$' !in s[1..];
      ExpandVerbatim(s[1..], mapping);
    }
  }

  /** Expand consults the mapping only on the names of Vars. */
  lemma {:induction false} ExpandDependsOnVars(s: string, m1: string -> string, m2: string -> string)
    requires forall k :: k in Vars(s) ==> m1(k) == m2(k)
    ensures Expand(s, m1) == Expand(s, m2)
    decreases |s|
  {
    if |s| == 0 {
    } else if s[0] == '$' && |s| > 1 {
      var (name, width) := ShellName(s[1..]);
      assert Vars(s[1 + width..]) <= Vars(s);
      ExpandDependsOnVars(s[1 + width..], m1, m2);
    } else {
      ExpandDependsOnVars(s[1..], m1, m2);
    }
  }

  /** Expand at a '$' that has something after it. */
  lemma ExpandAtDollar(s: string, mapping: string -> string)
    requires |s| > 1 && s[0] == '$'
    ensures var (name, width) := ShellName(s[1..]);
      Expand(s, mapping) == Substitute(name, width, mapping) + Expand(s[1 + width..], mapping)
  {
  }

  /** A template that is one `$` reference expands to the mapped value. */
  lemma ExpandWhole(s: string, name: string, mapping: string -> string)
    requires |s| > 1 && s[0] == '$' && name != ""
    requires ShellName(s[1..]) == (name, |s| - 1)
    ensures Expand(s, mapping) == mapping(name)
  {
    ExpandAtDollar(s, mapping);
    assert s[|s|..] == [];
  }

  /** A template that is `$` and an alphanumeric name expands to the mapped
      value of that name. */
  lemma ExpandNameAt(s: string, mapping: string -> string)
    requires |s| > 1 && s[0] == '$' && !IsShellSpecialVar(s[1]) && s[1] != '{'
    requires forall j :: 1 <= j < |s| ==> IsAlphaNum(s[j])
    ensures Expand(s, mapping) == mapping(s[1..])
  {
    var t := s[1..];
    forall j | 0 <= j < |t| ensures IsAlphaNum(t[j]) {
      assert t[j] == s[j + 1];
    }
    AlphaShellName(t);
    ExpandWhole(s, t, mapping);
  }

  /** getShellName of a run of alphanumerics that starts with neither a
      special character nor `{`: the whole run is the name. */
  lemma AlphaShellName(t: string)
    requires |t| > 0 && !IsShellSpecialVar(t[0]) && t[0] != '{'
    requires forall j :: 0 <= j < |t| ==> IsAlphaNum(t[j])
    ensures ShellName(t) == (t, |t|)
  {
    assert AlphaNumRun(t, 0) == |t|;
    assert t[..|t|] == t;
  }

  /** `$name` alone, with an alphanumeric name, expands to the mapped value. */
  lemma ExpandSingleName(name: string, mapping: string -> string)
    requires |name| > 0 && !IsShellSpecialVar(name[0]) && name[0] != '{'
    requires forall i :: 0 <= i < |name| ==> IsAlphaNum(name[i])
    ensures Expand("$" + name, mapping) == mapping(name)
  {
    var s := "$" + name;
    forall j | 1 <= j < |s| ensures IsAlphaNum(s[j]) {
      assert s[j] == name[j - 1];
    }
    assert s[1..] == name;
    ExpandNameAt(s, mapping);
  }

  /** getShellName of `{name}`, for a template given by its characters. */
  lemma BracedShellNameAt(t: string)
    requires |t| >= 3 && t[0] == '{' && t[|t| - 1] == '}'
    requires forall j :: 1 <= j < |t| - 1 ==> t[j] != '}'
    ensures ShellName(t) == (t[1..|t| - 1], |t|)
  {
    var close := |t| - 1;
    assert CloseBrace(t, 1) == close;
  }

  /** getShellName of `{name}`. */
  lemma BracedShellName(name: string)
    requires |name| > 0 && '}' !in name
    ensures ShellName("{" + name + "}") == (name, |name| + 2)
  {
    var t := "{" + name + "}";
    forall j | 1 <= j < |t| - 1 ensures t[j] != '}' {
      assert t[j] == name[j - 1];
    }
    BracedShellNameAt(t);
    assert t[1..|t| - 1] == name;
  }

  /** `${name}` expands to the mapped value. */
  lemma ExpandBracedName(name: string, mapping: string -> string)
    requires |name| > 0 && '}' !in name
    ensures Expand("$" + ("{" + name + "}"), mapping) == mapping(name)
  {
    var t := "{" + name + "}";
    var s := "$" + t;
    assert s[1..] == t;
    BracedShellName(name);
    ExpandWhole(s, name, mapping);
  }
}

=== FILE: workerpool.dfy ===
/** The worker pool (workerpool/service.go), run one step at a time: N bounded
    FIFO queues, one per worker; a job goes to the queue its routing key
    hashes to, so jobs that share a key run, and report, in submission order. */
module Workerpool {
  import opened Wrappers
  import opened GoStrings
  import opened Jobs
  import Config

  // ----- routing -----

  /** The 32-bit FNV-1a parameters. */
  const OffsetBasis32: bv32 := 2166136261
  const Prime32: bv32 := 16777619

  /** One FNV-1a round: xor the byte in, then multiply by the prime modulo 2^32. */
  function FnvStep(h: bv32, b: byte): bv32 {
    (h ^ (b as bv32)) * Prime32
  }

  /** FNV-1a over a byte string, from hash state `h`. */
  function FnvFold(h: bv32, bytes: seq<byte>): bv32
    decreases |bytes|
  {
    if |bytes| == 0 then h else FnvFold(FnvStep(h, bytes[0]), bytes[1..])
  }

  /** Hashing is a left fold, so writing the key in pieces gives the same sum. */
  lemma {:induction false} FnvFoldConcat(h: bv32, a: seq<byte>, b: seq<byte>)
    ensures FnvFold(h, a + b) == FnvFold(FnvFold(h, a), b)
    decreases |a|
  {
    if |a| > 0 {
      var h' := FnvStep(h, a[0]);
      assert (a + b)[0] == a[0];
      assert (a + b)[1..] == a[1..] + b;
      assert FnvFold(h, a + b) == FnvFold(h', a[1..] + b);
      assert FnvFold(h, a) == FnvFold(h', a[1..]);
      FnvFoldConcat(h', a[1..], b);
    } else {
      assert a + b == b;
    }
  }

  /** fnv.New32a().Sum32() after writing `bytes`: the offset basis for no
      bytes, and each byte folded in after all the bytes before it. */
  function Fnv1a32(bytes: seq<byte>): (h: bv32)
    ensures |bytes| == 0 ==> h == OffsetBasis32
    ensures |bytes| > 0 ==> h == FnvStep(FnvFold(OffsetBasis32, bytes[..|bytes| - 1]), bytes[|bytes| - 1])
  {
    if |bytes| > 0 then
      var n := |bytes| - 1;
      assert bytes == bytes[..n] + [bytes[n]];
      FnvFoldConcat(OffsetBasis32, bytes[..n], [bytes[n]]);
      FnvFold(OffsetBasis32, bytes)
    else
      FnvFold(OffsetBasis32, bytes)
  }

  /** Published FNV-1a test values. */
  lemma FnvKnownValues()
    ensures Fnv1a32([]) == 0x811c9dc5
    ensures Fnv1a32([0x61]) == 0xe40c292c
  {
    var a: seq<byte> := [0x61];
    assert a[0] as bv32 == 0x61;
    assert (OffsetBasis32 ^ 0x61) == 0x811c9da4;
    assert (0x811c9da4 as bv32) * Prime32 == 0xe40c292c;
    assert FnvStep(OffsetBasis32, a[0]) == 0xe40c292c;
    assert Fnv1a32(a) == FnvFold(0xe40c292c, a[1..]);
  }

  /** hashRoutingKey: `int(h.Sum32())`; with a 64-bit int it is never negative. */
  function HashRoutingKey(routingKey: string): (h: nat)
    ensures h < 0x1_0000_0000
  {
    Fnv1a32(Utf8(routingKey)) as nat
  }

  /** The queue Submit picks: the hash modulo the number of queues. */
  function WorkerIndex(routingKey: string, n: nat): (w: nat)
    requires n > 0
    ensures w < n
  {
    HashRoutingKey(routingKey) % n
  }

  /** How many of `jobs` Submit routes to queue `w` of `n`. */
  function RoutedCount(jobs: seq<Job>, w: nat, n: nat): (c: nat)
    requires n > 0
    ensures c <= |jobs|
    ensures w >= n ==> c == 0
    decreases |jobs|
  {
    if |jobs| == 0 then 0
    else (if WorkerIndex(jobs[0].routingKey, n) == w then 1 else 0) + RoutedCount(jobs[1..], w, n)
  }

  /** Queues with room for every job still to come, counted per target
      queue, have room for the next job in its own queue, and still have
      room for the rest once that job is appended there. */
  lemma RoomAfterEnqueue(queues: seq<seq<Job>>, queueSize: nat, job: Job, jobs: seq<Job>)
    requires |queues| > 0
    requires forall w :: 0 <= w < |queues| ==> |queues[w]| + RoutedCount([job] + jobs, w, |queues|) <= queueSize
    ensures var t := WorkerIndex(job.routingKey, |queues|);
      && |queues[t]| < queueSize
      && forall w :: 0 <= w < |queues| ==>
           |queues[t := queues[t] + [job]][w]| + RoutedCount(jobs, w, |queues|) <= queueSize
  {
    assert ([job] + jobs)[0] == job;
    assert ([job] + jobs)[1..] == jobs;
  }

  /** The jobs of `jobs` that Submit routes to queue `w` of `n`, in order. */
  function RoutedJobs(jobs: seq<Job>, w: nat, n: nat): (r: seq<Job>)
    requires n > 0
    ensures |r| == RoutedCount(jobs, w, n)
    decreases |jobs|
  {
    if |jobs| == 0 then []
    else (if WorkerIndex(jobs[0].routingKey, n) == w then [jobs[0]] else []) + RoutedJobs(jobs[1..], w, n)
  }

  /** A job is among those routed to queue `w` exactly when it is one of
      the jobs and its key selects `w`. */
  lemma {:induction false} RoutedJobsMembers(jobs: seq<Job>, w: nat, n: nat, job: Job)
    requires n > 0
    ensures job in RoutedJobs(jobs, w, n) <==> job in jobs && WorkerIndex(job.routingKey, n) == w
    decreases |jobs|
  {
    if |jobs| > 0 {
      RoutedJobsMembers(jobs[1..], w, n, job);
      assert jobs == [jobs[0]] + jobs[1..];
    }
  }

  /** Routing a concatenation routes each part, the first part's jobs first. */
  lemma {:induction false} RoutedJobsConcat(a: seq<Job>, b: seq<Job>, w: nat, n: nat)
    requires n > 0
    ensures RoutedJobs(a + b, w, n) == RoutedJobs(a, w, n) + RoutedJobs(b, w, n)
    decreases |a|
  {
    if |a| == 0 {
      assert a + b == b;
    } else {
      assert (a + b)[0] == a[0];
      assert (a + b)[1..] == a[1..] + b;
      RoutedJobsConcat(a[1..], b, w, n);
    }
  }

  /** Each queue of `queues` is the same queue of `start` with the jobs of
      `jobs` that route to it appended, in order: what submitting `jobs` one
      after another does to the queues. */
  ghost predicate Gained(start: seq<seq<Job>>, queues: seq<seq<Job>>, jobs: seq<Job>) {
    && |start| > 0 && |queues| == |start|
    && forall w {:trigger RoutedJobs(jobs, w, |start|)} :: 0 <= w < |start| ==>
         queues[w] == start[w] + RoutedJobs(jobs, w, |start|)
  }

  /** Before any submission the queues have gained nothing. */
  lemma GainedNothing(queues: seq<seq<Job>>)
    requires |queues| > 0
    ensures Gained(queues, queues, [])
  {
    forall w | 0 <= w < |queues| ensures queues[w] == queues[w] + RoutedJobs([], w, |queues|) {
      assert queues[w] + [] == queues[w];
    }
  }

  /** Routing one more job extends queue `w`'s share by that job exactly
      when its key selects `w`. */
  lemma RoutedJobsSnoc(jobs: seq<Job>, job: Job, w: nat, n: nat)
    requires n > 0
    ensures RoutedJobs(jobs + [job], w, n)
            == RoutedJobs(jobs, w, n) + (if WorkerIndex(job.routingKey, n) == w then [job] else [])
  {
    RoutedJobsConcat(jobs, [job], w, n);
    assert [job][1..] == [];
    assert RoutedJobs([job], w, n) == (if WorkerIndex(job.routingKey, n) == w then [job] else []) + [];
  }

  lemma AppendAssoc(a: seq<Job>, b: seq<Job>, c: seq<Job>)
    ensures (a + b) + c == a + (b + c)
  {
  }

  /** Queues that have gained nothing are the queues they started as. */
  lemma GainedNothingUnchanged(start: seq<seq<Job>>, queues: seq<seq<Job>>)
    requires Gained(start, queues, [])
    ensures queues == start
  {
    forall w | 0 <= w < |start| ensures queues[w] == start[w] {
      assert queues[w] == start[w] + RoutedJobs([], w, |start|);
      assert start[w] + [] == start[w];
    }
  }

  /** Appending one more job to the tail of the queue its key selects
      extends what the queues have gained by that job. */
  lemma GainedOneMore(start: seq<seq<Job>>, queues: seq<seq<Job>>, jobs: seq<Job>, job: Job)
    requires Gained(start, queues, jobs)
    ensures var t := WorkerIndex(job.routingKey, |queues|);
      Gained(start, queues[t := queues[t] + [job]], jobs + [job])
  {
    var n := |start|;
    var t := WorkerIndex(job.routingKey, n);
    var queues' := queues[t := queues[t] + [job]];
    forall w | 0 <= w < n
      ensures queues'[w] == start[w] + RoutedJobs(jobs + [job], w, n)
    {
      assert queues[w] == start[w] + RoutedJobs(jobs, w, n);
      RoutedJobsSnoc(jobs, job, w, n);
      if w == t {
        AppendAssoc(start[w], RoutedJobs(jobs, w, n), [job]);
      } else {
        assert RoutedJobs(jobs, w, n) + [] == RoutedJobs(jobs, w, n);
      }
    }
  }

  /** What the queues have gained fixes their lengths: each grew by the
      number of jobs routed to it, which is what room for a later batch of
      submissions is counted against. */
  lemma GainedLengths(start: seq<seq<Job>>, queues: seq<seq<Job>>, jobs: seq<Job>)
    requires Gained(start, queues, jobs)
    ensures forall w :: 0 <= w < |queues| ==> |queues[w]| == |start[w]| + RoutedCount(jobs, w, |queues|)
  {
    forall w | 0 <= w < |queues|
      ensures |queues[w]| == |start[w]| + RoutedCount(jobs, w, |queues|)
    {
      assert queues[w] == start[w] + RoutedJobs(jobs, w, |start|);
    }
  }

  // ----- per-key order -----

  /** The jobs of `s` whose routing key is `key`, in order. */
  function KeyJobs(s: seq<Job>, key: string): seq<Job> {
    if |s| == 0 then []
    else if s[|s| - 1].routingKey == key then KeyJobs(s[..|s| - 1], key) + [s[|s| - 1]]
    else KeyJobs(s[..|s| - 1], key)
  }

  lemma {:induction false} KeyJobsConcat(a: seq<Job>, b: seq<Job>, key: string)
    ensures KeyJobs(a + b, key) == KeyJobs(a, key) + KeyJobs(b, key)
    decreases |b|
  {
    if |b| == 0 {
      assert a + b == a;
    } else {
      assert (a + b)[..|a + b| - 1] == a + b[..|b| - 1];
      KeyJobsConcat(a, b[..|b| - 1], key);
    }
  }

  /** Every queued job sits in the queue its routing key selects. */
  ghost predicate Routed(queues: seq<seq<Job>>) {
    forall w, i {:trigger WorkerIndex(queues[w][i].routingKey, |queues|)} ::
      0 <= w < |queues| && 0 <= i < |queues[w]| ==>
      WorkerIndex(queues[w][i].routingKey, |queues|) == w
  }

  /** For every key, the jobs already executed followed by those still queued
      are exactly the jobs submitted, in submission order. */
  ghost predicate KeyOrder(executed: seq<Job>, queues: seq<seq<Job>>, submitted: seq<Job>)
    requires |queues| > 0
  {
    forall key {:trigger WorkerIndex(key, |queues|)} :: KeyJobs(executed, key) + KeyJobs(queues[WorkerIndex(key, |queues|)], key)
                  == KeyJobs(submitted, key)
  }

  /** Appending a job of another key leaves a key's jobs alone. */
  lemma KeyJobsSnocOther(s: seq<Job>, job: Job, key: string)
    requires job.routingKey != key
    ensures KeyJobs(s + [job], key) == KeyJobs(s, key)
  {
    assert (s + [job])[..|s + [job]| - 1] == s;
  }

  /** Appending a job of the key extends that key's jobs by it. */
  lemma KeyJobsSnocSame(s: seq<Job>, job: Job)
    ensures KeyJobs(s + [job], job.routingKey) == KeyJobs(s, job.routingKey) + [job]
  {
    assert (s + [job])[..|s + [job]| - 1] == s;
  }

  /** Submit keeps every queued job in the queue its key selects. */
  lemma EnqueueKeepsRouted(queues: seq<seq<Job>>, job: Job)
    requires |queues| > 0 && Routed(queues)
    ensures var w := WorkerIndex(job.routingKey, |queues|);
      Routed(queues[w := queues[w] + [job]])
  {
    var w := WorkerIndex(job.routingKey, |queues|);
    var queues': seq<seq<Job>> := queues[w := queues[w] + [job]];
    forall v, i | 0 <= v < |queues'| && 0 <= i < |queues'[v]|
      ensures WorkerIndex(queues'[v][i].routingKey, |queues'|) == v
    {
      if v == w && i == |queues[w]| {
        assert queues'[v][i] == job;
      } else {
        assert queues'[v][i] == queues[v][i];
      }
    }
  }

  /** Submit keeps the per-key order: the job joins the tail of its own queue
      and of its key's submissions. */
  lemma EnqueueKeepsOrder(executed: seq<Job>, queues: seq<seq<Job>>, submitted: seq<Job>, job: Job)
    requires |queues| > 0 && KeyOrder(executed, queues, submitted)
    ensures var w := WorkerIndex(job.routingKey, |queues|);
      KeyOrder(executed, queues[w := queues[w] + [job]], submitted + [job])
  {
    var n := |queues|;
    var w := WorkerIndex(job.routingKey, n);
    var queues': seq<seq<Job>> := queues[w := queues[w] + [job]];
    forall key
      ensures KeyJobs(executed, key) + KeyJobs(queues'[WorkerIndex(key, n)], key)
              == KeyJobs(submitted + [job], key)
    {
      var v := WorkerIndex(key, n);
      assert KeyJobs(executed, key) + KeyJobs(queues[v], key) == KeyJobs(submitted, key);
      if key == job.routingKey {
        KeyJobsSnocSame(submitted, job);
        KeyJobsSnocSame(queues[w], job);
      } else {
        KeyJobsSnocOther(submitted, job, key);
        if v == w {
          KeyJobsSnocOther(queues[w], job, key);
        }
      }
    }
  }

  /** A worker taking the head of its queue keeps every remaining job routed. */
  lemma DequeueKeepsRouted(queues: seq<seq<Job>>, w: nat)
    requires |queues| > 0 && Routed(queues)
    requires w < |queues| && |queues[w]| > 0
    ensures Routed(queues[w := queues[w][1..]])
  {
    var queues': seq<seq<Job>> := queues[w := queues[w][1..]];
    forall v, i | 0 <= v < |queues'| && 0 <= i < |queues'[v]|
      ensures WorkerIndex(queues'[v][i].routingKey, |queues'|) == v
    {
      if v == w {
        assert queues'[v][i] == queues[v][i + 1];
      } else {
        assert queues'[v][i] == queues[v][i];
      }
    }
  }

  /** Taking the first job off a sequence takes it off its key's jobs. */
  lemma KeyJobsCons(job: Job, rest: seq<Job>, key: string)
    ensures KeyJobs([job] + rest, key)
            == (if job.routingKey == key then [job] else []) + KeyJobs(rest, key)
  {
    KeyJobsConcat([job], rest, key);
    assert KeyJobs([job], key) == KeyJobs([], key) + (if job.routingKey == key then [job] else []);
  }

  /** Moving the head of a key's queue to the end of its executed jobs
      leaves their concatenation as it was. */
  lemma MoveHeadKeepsKeyJobs(executed: seq<Job>, job: Job, rest: seq<Job>, key: string)
    ensures KeyJobs(executed + [job], key) + KeyJobs(rest, key)
            == KeyJobs(executed, key) + KeyJobs([job] + rest, key)
  {
    KeyJobsCons(job, rest, key);
    var e := KeyJobs(executed, key);
    var r := KeyJobs(rest, key);
    if job.routingKey == key {
      KeyJobsSnocSame(executed, job);
      assert (e + [job]) + r == e + ([job] + r);
    } else {
      KeyJobsSnocOther(executed, job, key);
      assert [] + r == r;
    }
  }

  /** A worker taking the head of its queue keeps the per-key order: that job
      is the next of its key to run. */
  lemma DequeueKeepsOrder(executed: seq<Job>, queues: seq<seq<Job>>, submitted: seq<Job>, w: nat)
    requires |queues| > 0 && Routed(queues) && KeyOrder(executed, queues, submitted)
    requires w < |queues| && |queues[w]| > 0
    ensures KeyOrder(executed + [queues[w][0]], queues[w := queues[w][1..]], submitted)
  {
    var n := |queues|;
    var job := queues[w][0];
    var rest := queues[w][1..];
    var queues': seq<seq<Job>> := queues[w := rest];
    assert WorkerIndex(job.routingKey, n) == w;
    assert queues[w] == [job] + rest;
    forall key
      ensures KeyJobs(executed + [job], key) + KeyJobs(queues'[WorkerIndex(key, n)], key)
              == KeyJobs(submitted, key)
    {
      var v := WorkerIndex(key, n);
      assert KeyJobs(executed, key) + KeyJobs(queues[v], key) == KeyJobs(submitted, key);
      if v == w {
        MoveHeadKeepsKeyJobs(executed, job, rest, key);
      } else {
        KeyJobsSnocOther(executed, job, key);
        assert queues'[v] == queues[v];
      }
    }
  }

  /** The pool's ordering guarantee: the executed jobs of any one key are a
      prefix of that key's submissions. */
  lemma SameKeyRunsInSubmissionOrder(executed: seq<Job>, queues: seq<seq<Job>>, submitted: seq<Job>, key: string)
    requires |queues| > 0 && KeyOrder(executed, queues, submitted)
    ensures KeyJobs(executed, key) <= KeyJobs(submitted, key)
  {
    var q := KeyJobs(queues[WorkerIndex(key, |queues|)], key);
    assert KeyJobs(executed, key) + q == KeyJobs(submitted, key);
    assert KeyJobs(submitted, key)[..|KeyJobs(executed, key)|] == KeyJobs(executed, key);
  }

  /** Once every queue is drained, each key's jobs have all run, in
      submission order. */
  lemma DrainedRunsAllInOrder(executed: seq<Job>, queues: seq<seq<Job>>, submitted: seq<Job>, key: string)
    requires |queues| > 0 && KeyOrder(executed, queues, submitted)
    requires forall w :: 0 <= w < |queues| ==> queues[w] == []
    ensures KeyJobs(executed, key) == KeyJobs(submitted, key)
  {
    var q := queues[WorkerIndex(key, |queues|)];
    assert q == [];
    assert KeyJobs(executed, key) + KeyJobs(q, key) == KeyJobs(submitted, key);
    assert KeyJobs(executed, key) + [] == KeyJobs(executed, key);
  }

  // ----- running one job -----

  /** How the job's command would behave if left alone: how long it runs and
      whether it exits successfully. The subprocess itself is outside the model. */
  datatype ProcessRun = ProcessRun(duration: nat, exitOk: bool)

  /** The timeout executeJob applies: the job's own, else the general one. */
  function EffectiveTimeout(job: Job, general: Config.Duration): (d: Config.Duration)
    ensures job.timeout.Some? ==> d == job.timeout.value
    ensures job.timeout.None? ==> d == general
  {
    job.timeout.GetOr(general)
  }

  /** executeJob: the command is killed when its timeout expires; a failure
      after expiry reports the context's cause, any other failure the job. */
  function ExecuteJob(job: Job, general: Config.Duration, run: ProcessRun): (err: Option<JobError>)
    ensures err == Some(DeadlineExceeded) <==> run.duration >= EffectiveTimeout(job, general)
    ensures err == Some(CommandFailed(job.id)) <==> run.duration < EffectiveTimeout(job, general) && !run.exitOk
    ensures err.None? <==> run.duration < EffectiveTimeout(job, general) && run.exitOk
  {
    if run.duration >= EffectiveTimeout(job, general) then Some(DeadlineExceeded)
    else if !run.exitOk then Some(CommandFailed(job.id))
    else None
  }

  /** A job with its own timeout is unaffected by the general timeout. */
  lemma OwnTimeoutOverridesGeneral(job: Job, g1: Config.Duration, g2: Config.Duration, run: ProcessRun)
    requires job.timeout.Some?
    ensures ExecuteJob(job, g1, run) == ExecuteJob(job, g2, run)
    ensures ExecuteJob(job, g1, run) == Some(DeadlineExceeded) <==> run.duration >= job.timeout.value
  {
  }

  /** The general timeout of the current snapshot. */
  function GeneralTimeout(c: Config.Config): (t: Config.Duration)
    reads c, c.cfg
    requires c.HasGeneralTimeout()
    ensures t > 0
  {
    c.cfg.general.value.timeout.value
  }

  // ----- the pool -----

  datatype NewServiceError =
    | BadWorkers     // "workersNum has to be > 0"
    | BadQueueSize   // "queue must be >= 0"

  datatype SubmitError =
    | PoolClosed     // "pool is closed"
    | ContextDone    // the submitter's context ended first: its cause

  /** What one turn of a worker's loop does. */
  datatype WorkerStep =
    | Exited(canceled: bool)     // returned: context done, or queue closed and drained
    | Published(result: JobResult)  // ran the head job and published its result

  class Service {
    const workers: nat
    const queueSize: nat
    const resultsCapacity: nat
    const cfg: Config.Config
    var queues: seq<seq<Job>>
    var closed: bool
    /** The results channel's buffer, oldest first. */
    var results: seq<JobResult>

    /** Every job Submit accepted, in acceptance order. */
    ghost var submitted: seq<Job>
    /** Every job a worker has run, in the order they ran. */
    ghost var executed: seq<Job>
    /** Every result published, in the order published; the first `consumed`
        have been received. */
    ghost var published: seq<JobResult>
    ghost var consumed: nat

    ghost predicate Valid()
      reads this
    {
      && workers > 0 && |queues| == workers
      && resultsCapacity == queueSize * workers
      && (forall w :: 0 <= w < workers ==> |queues[w]| <= queueSize)
      && Routed(queues)
      && KeyOrder(executed, queues, submitted)
      && |published| == |executed|
      && (forall i :: 0 <= i < |executed| ==>
            published[i].jobId == executed[i].id && published[i].exec == executed[i].exec)
      && consumed <= |published| && results == published[consumed..]
      && |results| <= resultsCapacity
    }

    /** The allocation NewService performs once its arguments pass. */
    constructor (workersNum: nat, queueSize: nat, cfg: Config.Config)
      requires workersNum > 0
      ensures Valid() && !closed
      ensures workers == workersNum && this.queueSize == queueSize && this.cfg == cfg
      ensures resultsCapacity == queueSize * workersNum
      ensures forall w :: 0 <= w < workersNum ==> queues[w] == []
      ensures results == [] && submitted == [] && executed == []
    {
      var qs: seq<seq<Job>> := [];
      while |qs| < workersNum
        invariant |qs| <= workersNum
        invariant forall w :: 0 <= w < |qs| ==> qs[w] == []
      {
        qs := qs + [[]];
      }
      workers := workersNum;
      this.queueSize := queueSize;
      resultsCapacity := queueSize * workersNum;
      this.cfg := cfg;
      queues := qs;
      closed := false;
      results := [];
      submitted, executed, published, consumed := [], [], [], 0;
    }

    /** Submit. `ctxDone` tells whether the caller's context has ended. A send
        that would wait for room forever is not a step of this model. When
        the context has ended and the queue has room, Go's select may take
        either case. */
    method Submit(ctxDone: bool, job: Job) returns (err: Option<SubmitError>)
      requires Valid()
      requires closed || ctxDone || |queues[WorkerIndex(job.routingKey, workers)]| < queueSize
      modifies this
      ensures Valid()
      ensures err == Some(PoolClosed) <==> old(closed)
      ensures !old(closed) && !ctxDone ==> err.None?
      ensures !old(closed) && ctxDone && |old(queues)[WorkerIndex(job.routingKey, workers)]| == queueSize ==>
        err == Some(ContextDone)
      ensures err.Some? ==> unchanged(this)
      ensures err.None? ==>
        var w := WorkerIndex(job.routingKey, workers);
        && queues == old(queues)[w := old(queues)[w] + [job]]
        && submitted == old(submitted) + [job]
        && closed == old(closed) && results == old(results)
        && executed == old(executed) && published == old(published) && consumed == old(consumed)
    {
      if closed {
        return Some(PoolClosed);
      }
      var w := WorkerIndex(job.routingKey, |queues|);
      var canSend := |queues[w]| < queueSize;
      var cancelWins: bool;
      if ctxDone && canSend {
        cancelWins :| true;
      } else {
        cancelWins := ctxDone;
      }
      if cancelWins {
        return Some(ContextDone);
      }
      EnqueueKeepsRouted(queues, job);
      EnqueueKeepsOrder(executed, queues, submitted, job);
      queues := queues[w := queues[w] + [job]];
      submitted := submitted + [job];
      return None;
    }

    /** Stop: closes intake once; queued jobs stay to be drained. */
    method Stop()
      requires Valid()
      modifies this
      ensures Valid() && closed
      ensures old(closed) ==> unchanged(this)
      ensures queues == old(queues) && results == old(results)
      ensures submitted == old(submitted) && executed == old(executed)
      ensures published == old(published) && consumed == old(consumed)
    {
      if !closed {
        closed := true;
      }
    }

    /** Taking the head job of queue `w` and publishing `result` for it
        keeps the invariant. */
    lemma PublishKeepsValid(w: nat, result: JobResult)
      requires Valid() && w < workers && |queues[w]| > 0 && |results| < resultsCapacity
      requires result.jobId == queues[w][0].id && result.exec == queues[w][0].exec
      ensures var job := queues[w][0];
        var queues' := queues[w := queues[w][1..]];
        && Routed(queues')
        && KeyOrder(executed + [job], queues', submitted)
        && (forall v :: 0 <= v < workers ==> |queues'[v]| <= queueSize)
        && results + [result] == (published + [result])[consumed..]
        && (forall i :: 0 <= i < |executed| + 1 ==>
              (published + [result])[i].jobId == (executed + [job])[i].id
              && (published + [result])[i].exec == (executed + [job])[i].exec)
    {
      DequeueKeepsRouted(queues, w);
      DequeueKeepsOrder(executed, queues, submitted, w);
    }

    /** One turn of runWorker for worker `w`. `ctxDone` tells whether the
        pool's context has ended, `run` how the head job's command behaves.
        A receive or a publish that would wait forever is not a step. */
    method RunWorkerStep(w: nat, ctxDone: bool, run: ProcessRun) returns (step: WorkerStep)
      requires Valid() && w < workers && cfg.HasGeneralTimeout()
      requires ctxDone || |queues[w]| > 0 || closed
      requires ctxDone || |queues[w]| == 0 || |results| < resultsCapacity
      modifies this
      ensures Valid()
      ensures ctxDone ==> step == Exited(true) && unchanged(this)
      ensures !ctxDone && old(queues)[w] == [] ==> step == Exited(false) && unchanged(this)
      ensures !ctxDone && old(queues)[w] != [] ==>
        var job := old(queues)[w][0];
        step == Published(JobResult(job.id, ExecuteJob(job, GeneralTimeout(cfg), run), job.exec))
      ensures step.Published? ==>
        && queues == old(queues)[w := old(queues)[w][1..]]
        && results == old(results) + [step.result]
        && executed == old(executed) + [old(queues)[w][0]]
        && submitted == old(submitted) && closed == old(closed)
    {
      if ctxDone {
        return Exited(true);
      }
      if queues[w] == [] {
        return Exited(false);
      }
      var job := queues[w][0];
      var err := ExecuteJob(job, GeneralTimeout(cfg), run);
      var result := JobResult(job.id, err, job.exec);
      PublishKeepsValid(w, result);
      queues := queues[w := queues[w][1..]];
      results := results + [result];
      executed := executed + [job];
      published := published + [result];
      return Published(result);
    }

    /** Receiving one result from the channel Listen returns. */
    method Receive() returns (r: JobResult)
      requires Valid() && |results| > 0
      modifies this
      ensures Valid()
      ensures r == old(results)[0] && results == old(results)[1..]
      ensures queues == old(queues) && closed == old(closed)
      ensures submitted == old(submitted) && executed == old(executed)
    {
      r := results[0];
      results := results[1..];
      consumed := consumed + 1;
    }
  }

  /** NewService: argument checks, then the pool with empty queues. */
  method NewService(workersNum: int, queueSize: int, cfg: Config.Config)
    returns (r: Result<Service, NewServiceError>)
    ensures workersNum <= 0 ==> r == Err(BadWorkers)
    ensures workersNum > 0 && queueSize < 0 ==> r == Err(BadQueueSize)
    ensures r.Ok? <==> workersNum > 0 && queueSize >= 0
    ensures r.Ok? ==>
      && fresh(r.value) && r.value.Valid() && !r.value.closed && r.value.cfg == cfg
      && r.value.workers == workersNum && r.value.queueSize == queueSize
      && r.value.resultsCapacity == queueSize * workersNum
      && (forall w :: 0 <= w < workersNum ==> r.value.queues[w] == [])
  {
    if workersNum <= 0 {
      return Err(BadWorkers);
    }
    if queueSize < 0 {
      return Err(BadQueueSize);
    }
    var s := new Service(workersNum, queueSize, cfg);
    return Ok(s);
  }
}

=== FILE: wrappers.dfy ===
/** Optional values and fallible results, standing for Go's nil pointers and
    `(value, error)` pairs. */
module Wrappers {

  datatype Option<+T> = None | Some(value: T) {
    function GetOr(default: T): T {
      match this
      case Some(v) => v
      case None => default
    }
  }

  datatype Result<+T, +E> = Ok(value: T) | Err(error: E)
}
